=== FILE: README.md ===
# smbios-dumper, modelled in Dafny

smbios-dumper reads the raw SMBIOS firmware table of a Windows machine and dumps
the structures in it. The table comes in a container:

- Four version bytes, then a little-endian u32 length.
- Then the structure table itself, starting at byte 8.

The program walks the table from byte 8 to 8 + length. At each cursor it reads the
4-byte header: type, length and a u16 handle. It prints the fixed part of the
structure for three types:

- Processor Information, type 4, 26 bytes.
- Baseboard Information, type 2, 15 bytes.
- BIOS Information, type 0, whose BIOS Characteristics field is declared as an
  8-byte packed msb0 bit-field. The model decodes 26 bytes with that declared
  width; "Left out" below says how the source's memory layout differs.

Type 127 with length 4 (End-of-Table) stops the walk. Otherwise the cursor moves
two bytes past the first pair of NUL bytes at or after cursor + length, which skips
the structure's string section. The walk stops once the next cursor reaches the end
of the table.

The model works on an immutable buffer `seq<u8>`. Every structure is decoded field
by field at its repr(C) offsets, instead of by reinterpreting memory. The one
exception is the BIOS characteristics, taken at their declared packed width. The modules
are:

- `Bytes`: little-endian fixed-width integers.
- `Layout`: repr(C) field layouts, as lists of field widths.
- `Octets`: the msb-first bit view of a byte.
- `Characteristics`: the packed BIOS Characteristics.
- `Structures`: the container, the header, the type enum, the three typed
  structures and the dispatch on the type byte.
- `Walker`: the walk, written twice:
  - `WalkFrom` is the walk as a function that returns a trace.
  - `WalkStructures` is the loop of `main`, with `ScanStrings` as its inner scan.
    It is proved equal to the function.
- `WalkFacts`: what the walk guarantees.
- `Dumper`: the whole dump.

The source reads memory with no bounds checks. The model stops with an explicit
error instead when the container prefix, a header, a fixed part the model
decodes, or the string scan would run outside the buffer (or, for a header,
outside the table):

- `TruncatedContainer`
- `HeaderOutOfBounds`
- `FixedPartOutOfBounds`
- `UnterminatedStrings`

A structure of type 4, 2 or 0 whose declared length is below the model's fixed
size is not one of these. The model reports it as a `Malformed` record without
reading its fixed part, and walks on. The source reads the whole struct anyway,
wherever it ends: 26 bytes for type 4, 24 for type 2 on a 64-bit host (with the host pointer) and
48 for type 0. The model's fixed sizes are 26, 15 and 26, so a BIOS structure
with between 26 and 47 bytes left in the buffer is decoded by the model, while
the source reads past the buffer.

Three edge cases are decided as follows, measured against the code of `main`:

- **Empty table.** The loop reads a header at byte 8 before it compares anything
  with the end of the table (src/main.rs:221-223). It dispatches on that header,
  scans its strings and only then breaks because the next cursor is past the end
  (src/main.rs:269-272), with no error. The model requires every header it reads to
  lie inside the table, so for a table of length 0 it reports
  `HeaderOutOfBounds(8)` (`WalkFacts.EmptyTable`).
- **Reserved bits.** `main` never packs or unpacks the characteristics: it
  reinterprets memory and prints with `Debug` (src/main.rs:243-251). The model
  decodes the 8 bytes as the `PackedStruct` declaration describes them
  (src/main.rs:97-168). Under that declaration the `ReservedZeroes` bits are
  dropped on unpacking and written as zero on packing
  (`Structures.BiosBytesRoundTrip`).
- **Scan bound.** The string scan in the code has no bound at all: it reads on
  until it finds two NUL bytes, even past the end of the table (src/main.rs:262).
  The model adds one bound, the end of the buffer, where it reports
  `UnterminatedStrings`.

## Model

| member | source | states |
|---|---|---|
| Structures.ParseTag | src/main.rs:39-56 | every variant of the type enum is recognised from its own discriminant |
| Structures.ParseType | src/main.rs:39-56 | a byte recognised as a variant is that variant's discriminant; bytes that are no discriminant name no variant |
| Structures.HeaderLayout | src/main.rs:30-37 | type, length and handle lie at offsets 0, 1 and 2 with no padding; the header is 4 bytes |
| Structures.HeaderFields | src/main.rs:30-37 | the header at a cursor is the byte at c, the byte at c + 1 and the little-endian u16 at c + 2 |
| Structures.HeaderRoundTrip | src/main.rs:30-37 | decoding an encoded header gives it back, whatever follows it |
| Structures.HeaderBytesRoundTrip | src/main.rs:30-37 | encoding a decoded header reproduces its 4 bytes |
| Structures.ContainerLayout | src/main.rs:20-28 | the four version bytes lie at 0 to 3, the u32 length at 4, and the table data at 8 |
| Structures.DecodeContainer | src/main.rs:20-28 | there is no container exactly when the buffer is shorter than 8 bytes |
| Structures.ContainerLength | src/main.rs:218-219 | the table length is the little-endian u32 in bytes 4 to 7, and the table ends at 8 + that length |
| Structures.ContainerRoundTrip | src/main.rs:20-28 | decoding an encoded container prefix gives it back, whatever table follows |
| Structures.ContainerBytesRoundTrip | src/main.rs:20-28 | encoding a decoded prefix reproduces its 8 bytes |
| Structures.ProcessorLayout | src/main.rs:58-75 | the repr(C) Processor Information fields lie at 0, 1, 2, 4, 5, 6, 7, 8, 16, 17, 18, 20, 22, 24 and 25, naturally aligned, 26 bytes in all |
| Structures.ProcessorByteOffsets | src/main.rs:63-74 | socket, type, family, manufacturer, version, voltage, status and upgrade are the bytes at 4, 5, 6, 7, 16, 17, 24 and 25 |
| Structures.ProcessorWordOffsets | src/main.rs:62-72 | the header is at 0, the id is the little-endian u64 at 8, and the external clock, max speed and current speed are the u16s at 18, 20 and 22 |
| Structures.ProcessorRoundTrip | src/main.rs:58-75 | decoding an encoded Processor Information structure gives it back |
| Structures.ProcessorBytesRoundTrip | src/main.rs:58-75 | encoding a decoded Processor Information structure reproduces its 26 bytes |
| Structures.BoardLayout | src/main.rs:169-186 | the Baseboard Information header is at 0, then one byte each from 4 to 14, 15 bytes in all |
| Structures.BoardOffsets | src/main.rs:173-180 | the header is at 0; manufacturer, product, version, serial number, asset tag, feature flags and location are the bytes at 4 to 10 |
| Structures.BoardChassisOffsets | src/main.rs:181-184 | chassis_handle is the byte at 11 and packing the byte at 12; board type is at 13 and the object-handle count at 14 |
| Structures.BoardRoundTrip | src/main.rs:169-186 | decoding an encoded Baseboard Information structure gives it back |
| Structures.BoardBytesRoundTrip | src/main.rs:169-186 | encoding a decoded Baseboard Information structure reproduces its 15 bytes |
| Structures.BiosLayout | src/main.rs:77-95 | the BIOS Information front fields end at 10; the 8 characteristics bytes run from 10 to 18; the aligned back fields run from 18 to 26 |
| Structures.BiosOffsets | src/main.rs:81-87 | the header is at 0, vendor at 4, version at 5, the u16 starting segment at 6, release date at 8 and ROM size at 9; the characteristics are unpacked from bytes 10 to 17 |
| Structures.BiosTailOffsets | src/main.rs:88-94 | the extension bytes are at 18 and 19, the release bytes at 20 to 23, and the u16 extended ROM size at 24 |
| Structures.BiosRoundTrip | src/main.rs:77-95 | decoding an encoded BIOS Information structure gives it back, characteristics included |
| Structures.BiosBytesRoundTrip | src/main.rs:77-168 | re-encoding a decoded BIOS Information structure reproduces its 26 bytes exactly when the reserved characteristics bits were zero |
| Characteristics.UnpackedFlagPositions | src/main.rs:97-168 | each of the 30 decoded flags is read from its declared msb0 bit, 2 to 31, whatever the reserved bits hold |
| Characteristics.PackedFlagPositions | src/main.rs:102-163 | each of the 30 named flags is packed at its declared msb0 bit, 2 to 31 |
| Characteristics.UnpackPack | src/main.rs:97-168 | unpacking the packed flags gives the same flags |
| Characteristics.PackClearsReserved | src/main.rs:164-167 | packing writes every reserved bit (0-1, 32-63) as zero |
| Characteristics.ReservedByteZero | src/main.rs:164-167 | when the reserved bits are clear, bytes 4 to 7 are zero |
| Characteristics.PackUnpack | src/main.rs:97-168 | raw bytes re-encode to themselves after unpacking exactly when their reserved bits are zero |
| Structures.DecodedTags | src/main.rs:229-252 | a byte gets a typed decoder exactly when it is the Processor, Baseboard or BIOS discriminant (4, 2, 0) |
| Structures.TypedHeader | src/main.rs:231-247 | a typed decode gives a typed record whose header is the header the walker read |
| Structures.DecodeRecord | src/main.rs:223-258 | the record decoded at a cursor carries the header read at that cursor |
| Structures.RecordKinds | src/main.rs:229-258 | typed exactly for tags 4/2/0 with a long enough length and a fixed part in the buffer; Malformed exactly when such a length is too short; Unrecognized exactly for every other tag; no record exactly when the fixed part runs out of the buffer |
| Structures.FixedPartDecodes | src/main.rs:229-252 | a record is decoded exactly where the fixed part the decoder reads lies in the buffer |
| Walker.StringsEnd | src/main.rs:260-267 | where the scan stops, two NUL bytes start, at or after the starting point |
| Walker.StringsEndFirst | src/main.rs:260-267 | the scan stops at the first pair of NUL bytes, and finds nothing only when there is no pair at all |
| Walker.NextCursor | src/main.rs:260-267 | the next cursor is at least cursor + length + 2 |
| Walker.ScanStrings | src/main.rs:260-267 | the scanning loop finds exactly the pair of NUL bytes the scan specifies |
| Walker.WalkTableStart | src/main.rs:218-219 | the walk starts at byte 8 and ends at 8 + the u32 at offset 4 |
| Walker.WalkStructures | src/main.rs:221-275 | the loop reports exactly the visits and the stop reason of the walk from the cursor |
| Dumper.Walk | src/main.rs:218-275 | the dump reports the walk of the whole table, and each visited structure with the record decoded at its offset |
| WalkFacts.FirstDoubleNul | src/main.rs:262-265 | any pair of NUL bytes with none before it is the one the scan finds |
| WalkFacts.SectionSize | src/main.rs:260-266 | a string section is two bytes with no strings, and otherwise each string plus its NUL plus one final NUL |
| WalkFacts.StringsScan | src/main.rs:260-266 | over a section of N well-formed strings, the scan stops on the NUL of the last string |
| WalkFacts.SectionAdvance | src/main.rs:260-266 | after a well-formed string section the cursor moves by length + 2 with no strings, and by length + the strings' lengths plus one each + 1 with strings |
| WalkFacts.TagIrrelevant | src/main.rs:260-266 | with a nonzero length, the type byte does not change how far the cursor moves |
| WalkFacts.WalkContinues | src/main.rs:221-275 | where the walk goes on, it reports the structure at the cursor and then the walk from a strictly larger next cursor |
| WalkFacts.MarkerStops | src/main.rs:253 | at an End-of-Table header inside the table, the walk stops with no visit |
| WalkFacts.WalkHalts | src/main.rs:221-275 | where the walk does not go on, it reports at most the structure at the cursor |
| WalkFacts.VisitsInTable | src/main.rs:218-274 | every visited header lies inside the table, at or after the starting cursor |
| WalkFacts.VisitsOrdered | src/main.rs:260-274 | the cursor strictly increases: visits come in increasing order of offset |
| WalkFacts.VisitsDecode | src/main.rs:223-258 | every visit carries the header at its offset, is not End-of-Table, and has a decodable fixed part |
| WalkFacts.WalkStops | src/main.rs:221-275 | why the walk stopped: at an End-of-Table header in the table; with a next cursor at or past the end; or at the failing read each error names |
| WalkFacts.EndMarkerStops | src/main.rs:253 | type 127 with length 4 stops the walk whatever follows its header, with no scan |
| WalkFacts.BreakOtherLength | src/main.rs:253-257 | type 127 with any other length is visited as an Unrecognized structure |
| WalkFacts.EmptyTable | src/main.rs:218-224 | with table length 0 the walk fails reading a header at byte 8 |
| WalkFacts.TableVisits | src/main.rs:218-275 | the walk fails on a truncated prefix exactly when the buffer is shorter than 8; otherwise every visit lies in the table, in increasing order |
| WalkFacts.ProcessorHeaderAt | src/main.rs:58-62 | an encoded processor structure's header reads back as its header |
| WalkFacts.ProcessorAt | src/main.rs:231-235 | an encoded processor structure at a cursor decodes as that processor |
| WalkFacts.HeaderEncodedAt | src/main.rs:30-37 | an encoded header at a cursor reads back as that header |
| WalkFacts.StructureThenMarker | src/main.rs:221-275 | a structure with a well-formed string section followed by End-of-Table whose header lies in the table: for every table end from the marker's header on, the walk visits the structure once and stops at the marker |
| WalkFacts.StructureStep | src/main.rs:258-274 | a well-formed structure whose string section ends where the table still holds a header: the walk visits it with its header and continues at the byte after its two closing NULs, strictly further on |
| WalkFacts.StructuresThenMarker | src/main.rs:221-275 | any number of well-formed structures laid back to back, each with its string section, and then End-of-Table: every cursor lies before the marker, and for every table end from the marker's header on, the walk visits each structure once, in order, with its header, and stops at the marker |
| WalkFacts.WellFormedTable | src/main.rs:218-275 | a whole table of such structures starting at byte 8, with End-of-Table inside the table (its closing `00 00` or anything else may follow): the walk of the container visits them all in order and stops at the marker |
| WalkFacts.ProcessorThenMarker | src/main.rs:221-275 | a processor encoded at byte 8, its strings and End-of-Table inside the table: the walk visits the processor, which decodes as that processor, and stops at the marker |
| WalkFacts.ProcessorTable | src/main.rs:218-275 | a container holding a processor, its strings, End-of-Table and any trailing bytes in the table: the dump visits the processor at byte 8, decodes it field for field, and stops at the marker right after the strings |

## Left out

- The firmware query is not modelled: `GetSystemFirmwareTable` with the `RSMB` and `ACPI` constants. The buffer it fills is the model's input.
- The `dump` mode, which writes the buffer to a file, is not modelled. The command-line arguments that select it are left out too.
- `dbg!` and `println!` are not modelled. The model returns one record per visited structure, in the order of the walk. The program prints only the typed ones (Processor, Baseboard and BIOS); for `Unrecognized` records, such as other types or type 127 with another length, its `_` arm prints nothing.
- Memory reinterpretation (`transmute`) is not modelled. Fields are decoded from bytes at the repr(C) offsets, little-endian as on x86, except for the BIOS characteristics (see Structures.DecodeBios).
- The host pointers are not modelled: `table_data` and the Baseboard's trailing `p_obj_handle` are not table data.
- String resolution and checksums are not done by the source and are not modelled.
- Dumper.Walk: the source prints each typed structure as the loop passes it. The model walks first and then decodes every visited structure, including those the source passes over silently. Decoding never moves the cursor, so the typed and `Malformed` records together are, in order, the type 4, 2 and 0 structures the source prints; for a `Malformed` one the source prints the whole struct it reads, which the model does not decode.
- Walker.ScanStrings: the source reads on past any bound until it finds two NUL bytes. The model stops at the end of the buffer with `UnterminatedStrings`.
- Walker.WalkFrom: a header that does not fit before the end of the table or the buffer is `HeaderOutOfBounds`. The source reads it anyway.
- Walker.WalkFrom: a fixed part that runs past the buffer is `FixedPartOutOfBounds`. The source reads it anyway.
- Structures.DecodeRecord: for types 4, 2 and 0 with a declared length shorter than the fixed part, the model gives `Malformed`. The source reinterprets the bytes regardless of the length.
- Structures.DecodeRecord: a type byte outside the enum is `Unrecognized`. In the source such a byte is an invalid enum value, and the match falls to its default arm.
- Structures.DecodeBios: the characteristics are decoded with the declared packed 8-byte msb0 layout at bytes 10 to 17, so the model's BIOS fixed part is 26 bytes. In memory the Rust `BiosCharacteristics` is a plain struct of 30 one-byte bools, in an order the compiler chooses, and its `ReservedZeroes` fields take no space. The repr(C) `SmbiosBiosInfo` therefore holds the characteristics at bytes 10 to 39, `extension` to `embedded_minor_release` at 40 to 45 and `extended_rom_size` at 46, and the source reads 48 bytes. The model does not reproduce that layout. Its 26-byte size also sets the `Malformed` and `FixedPartOutOfBounds` thresholds for type 0.
- Structures.BiosTailOffsets: the back fields sit at bytes 18 to 25, after the declared 8-byte characteristics. In the source's memory layout they sit at bytes 40 to 47.
- Characteristics.Unpack: the reserved bits (0-1 and 32-63) are dropped on unpacking, as `ReservedZeroes` fields are.
- WalkFacts.TagIrrelevant: holds only for a nonzero length. With length 0 the scan starts on the type byte itself.

=== FILE: bytes.dfy ===
/** Fixed-width unsigned integers and their little-endian byte encoding, as the
    repr(C) structures of src/main.rs lay them out on an x86 host. */
module Bytes {

  type u8 = x: int | 0 <= x < 0x100
  type u16 = x: int | 0 <= x < 0x1_0000
  type u32 = x: int | 0 <= x < 0x1_0000_0000
  type u64 = x: int | 0 <= x < 0x1_0000_0000_0000_0000

  /** 256^n: one more than the largest value n bytes can hold. */
  function Pow256(n: nat): (r: nat)
    ensures r >= 1
  {
    if n == 0 then 1 else 256 * Pow256(n - 1)
  }

  /** The bounds of the widths the structures use. */
  lemma Pow256Widths()
    ensures Pow256(1) == 0x100 && Pow256(2) == 0x1_0000
    ensures Pow256(4) == 0x1_0000_0000 && Pow256(8) == 0x1_0000_0000_0000_0000
  {
    assert Pow256(1) == 0x100;
    assert Pow256(2) == 0x1_0000;
    assert Pow256(3) == 0x100_0000;
    assert Pow256(4) == 0x1_0000_0000;
    assert Pow256(5) == 0x100_0000_0000;
    assert Pow256(6) == 0x1_0000_0000_0000;
    assert Pow256(7) == 0x100_0000_0000_0000;
  }

  /** The little-endian value of a byte string: the first byte is the least significant. */
  function LeValue(bs: seq<u8>): (v: nat)
    ensures v < Pow256(|bs|)
  {
    if bs == [] then 0 else bs[0] + 256 * LeValue(bs[1..])
  }

  /** The n-byte little-endian encoding of v; decoding it gives v back. */
  function LeBytes(v: nat, n: nat): (bs: seq<u8>)
    requires v < Pow256(n)
    ensures |bs| == n
    ensures LeValue(bs) == v
  {
    if n == 0 then [] else [v % 256] + LeBytes(v / 256, n - 1)
  }

  /** Encoding the value of a byte string reproduces the string: the encoding is onto. */
  lemma {:induction false} LeBytesOfValue(bs: seq<u8>)
    ensures LeBytes(LeValue(bs), |bs|) == bs
  {
    if bs != [] {
      LeBytesOfValue(bs[1..]);
      assert LeValue(bs) % 256 == bs[0];
      assert LeValue(bs) / 256 == LeValue(bs[1..]);
    }
  }

  /** The n-byte little-endian unsigned integer stored at offset `at`. */
  function ReadLe(s: seq<u8>, at: nat, n: nat): (v: nat)
    requires at + n <= |s|
    ensures v < Pow256(n)
  {
    LeValue(s[at..at + n])
  }

  function ReadU16(s: seq<u8>, at: nat): u16
    requires at + 2 <= |s|
  {
    ReadLe(s, at, 2)
  }

  function ReadU32(s: seq<u8>, at: nat): u32
    requires at + 4 <= |s|
  {
    ReadLe(s, at, 4)
  }

  function ReadU64(s: seq<u8>, at: nat): u64
    requires at + 8 <= |s|
  {
    ReadLe(s, at, 8)
  }

  function U16Bytes(v: u16): (bs: seq<u8>)
    ensures |bs| == 2
  {
    LeBytes(v, 2)
  }

  /** A field written with LeBytes at offset `at` reads back as the value written. */
  lemma ReadBackLe(s: seq<u8>, at: nat, v: nat, n: nat)
    requires v < Pow256(n)
    requires at + n <= |s| && s[at..at + n] == LeBytes(v, n)
    ensures ReadLe(s, at, n) == v
  {
  }

  /** Reading a field and writing it back reproduces its bytes. */
  lemma {:induction false} WriteBackLe(s: seq<u8>, at: nat, n: nat)
    requires at + n <= |s|
    ensures LeBytes(ReadLe(s, at, n), n) == s[at..at + n]
  {
    LeBytesOfValue(s[at..at + n]);
  }

  /** Reading a field of a suffix is reading the field further along. */
  lemma ReadLeSuffix(s: seq<u8>, w: nat, at: nat, n: nat)
    requires w + at + n <= |s|
    ensures ReadLe(s[w..], at, n) == ReadLe(s, w + at, n)
  {
    assert s[w..][at..at + n] == s[w + at..w + at + n];
  }

  /** A one-byte field is the byte itself. */
  lemma ReadLeByte(s: seq<u8>, at: nat)
    requires at + 1 <= |s|
    ensures ReadLe(s, at, 1) == s[at]
  {
    assert s[at..at + 1] == [s[at]];
  }

  /** A two-byte field is its low byte plus 256 times its high byte. */
  lemma ReadLeWord(s: seq<u8>, at: nat)
    requires at + 2 <= |s|
    ensures ReadLe(s, at, 2) == s[at] as int + 256 * s[at + 1] as int
  {
    var w := s[at..at + 2];
    assert w == [s[at], s[at + 1]];
    assert w[1..] == [s[at + 1]] && w[1..][1..] == [];
    assert LeValue(w[1..]) == s[at + 1] as int + 256 * LeValue([]);
    assert LeValue(w) == s[at] as int + 256 * LeValue(w[1..]);
  }
}

=== FILE: characteristics.dfy ===
/** The BIOS Characteristics field of the BIOS Information structure
    (src/main.rs:97-168): an 8-byte packed bit-field declared with
    `bit_numbering = "msb0"`, so that bit k is the (k mod 8)-th bit, counted from
    the most significant end, of byte k / 8.

    Section 7.1.1 of DSP0134 (the SMBIOS Reference Specification) numbers the same
    QWORD the other way round, least significant bit first in little-endian order,
    so its "bit 4, ISA is supported" is bit 4 of byte 0 counted from the least
    significant end, where this layout reads bit 3 of byte 0 counted that way. The
    model states what the source declares. */
module Characteristics {
  import opened Octets

  /** The 30 named capability flags; the reserved spans are ReservedZeroes in the
      source and have no field here. */
  datatype BiosCharacteristics = BiosCharacteristics(
    unknown: bool,                     // bit 2
    characteristicsUnsupported: bool,  // bit 3
    isaSupported: bool,                // bit 4
    mcaSupported: bool,                // bit 5
    eisaSupported: bool,               // bit 6
    pciSupported: bool,                // bit 7
    pcmciaSupported: bool,             // bit 8
    pnpSupported: bool,                // bit 9
    apmSupported: bool,                // bit 10
    biosUpgradeable: bool,             // bit 11
    biosShadowingAllowed: bool,        // bit 12
    vesaSupported: bool,               // bit 13
    escdSupported: bool,               // bit 14
    cdBootSupported: bool,             // bit 15
    selectBootSupported: bool,         // bit 16
    biosRomSocketed: bool,             // bit 17
    pcmciaBootSupported: bool,         // bit 18
    eddSupported: bool,                // bit 19
    floppyNecSupported: bool,          // bit 20
    floppyToshibaSupported: bool,      // bit 21
    floppy360kbSupported: bool,        // bit 22
    floppy1_2mbSupported: bool,        // bit 23
    floppy720kbSupported: bool,        // bit 24
    floppy2_88mbSupported: bool,       // bit 25
    printScreenServiceSupported: bool, // bit 26
    keyboard8042Supported: bool,       // bit 27
    serialServiceSupported: bool,      // bit 28
    printerServiceSupported: bool,     // bit 29
    cgaServiceSupported: bool,         // bit 30
    necPc98: bool                      // bit 31
  )

  const CHARACTERISTICS_BYTES := 8

  /** Bits 0-1 (reserved), 32-47 (reserved for the BIOS vendor) and 48-63 (reserved
      for the system vendor). */
  predicate IsReservedBit(k: nat) {
    k < 2 || 32 <= k < 8 * CHARACTERISTICS_BYTES
  }

  /** Bit j of an octet, j = 0 being the most significant. */
  function OctetBit(o: Octet, j: nat): bool
    requires j < 8
  {
    match j
    case 0 => o.b0
    case 1 => o.b1
    case 2 => o.b2
    case 3 => o.b3
    case 4 => o.b4
    case 5 => o.b5
    case 6 => o.b6
    case 7 => o.b7
  }

  /** msb0 addressing of the 8-byte field, given as the bits of its bytes: bit k
      is bit k mod 8, counted from the most significant end, of byte k / 8. */
  function MsbBit(raw: seq<Octet>, k: nat): bool
    requires |raw| == CHARACTERISTICS_BYTES && k < 8 * CHARACTERISTICS_BYTES
  {
    OctetBit(raw[k / 8], k % 8)
  }

  /** The flags packed into the 8 raw bytes; bits 0 and 1 and bytes 4 to 7 are
      written as zero. */
  function Pack(c: BiosCharacteristics): (raw: seq<Octet>)
    ensures |raw| == CHARACTERISTICS_BYTES
  {
    [Octet(false, false, c.unknown, c.characteristicsUnsupported,
           c.isaSupported, c.mcaSupported, c.eisaSupported, c.pciSupported),
     Octet(c.pcmciaSupported, c.pnpSupported, c.apmSupported, c.biosUpgradeable,
           c.biosShadowingAllowed, c.vesaSupported, c.escdSupported, c.cdBootSupported),
     Octet(c.selectBootSupported, c.biosRomSocketed, c.pcmciaBootSupported, c.eddSupported,
           c.floppyNecSupported, c.floppyToshibaSupported, c.floppy360kbSupported, c.floppy1_2mbSupported),
     Octet(c.floppy720kbSupported, c.floppy2_88mbSupported, c.printScreenServiceSupported, c.keyboard8042Supported,
           c.serialServiceSupported, c.printerServiceSupported, c.cgaServiceSupported, c.necPc98),
     ZERO_OCTET, ZERO_OCTET, ZERO_OCTET, ZERO_OCTET]
  }

  /** The flags of 8 raw bytes: each named flag is its own msb0 bit; the reserved
      bits are not read. */
  function Unpack(raw: seq<Octet>): BiosCharacteristics
    requires |raw| == CHARACTERISTICS_BYTES
  {
    var o0, o1, o2, o3 := raw[0], raw[1], raw[2], raw[3];
    BiosCharacteristics(
      o0.b2, o0.b3, o0.b4, o0.b5, o0.b6, o0.b7,
      o1.b0, o1.b1, o1.b2, o1.b3, o1.b4, o1.b5, o1.b6, o1.b7,
      o2.b0, o2.b1, o2.b2, o2.b3, o2.b4, o2.b5, o2.b6, o2.b7,
      o3.b0, o3.b1, o3.b2, o3.b3, o3.b4, o3.b5, o3.b6, o3.b7)
  }

  /** The reserved spans of a raw field hold zero bits only. */
  predicate ReservedClear(raw: seq<Octet>)
    requires |raw| == CHARACTERISTICS_BYTES
  {
    forall k :: 0 <= k < 8 * CHARACTERISTICS_BYTES && IsReservedBit(k) ==> !MsbBit(raw, k)
  }

  /** Bit 8i + j of the field is bit j of byte i. */
  lemma MsbBitOf(raw: seq<Octet>, i: nat, j: nat)
    requires |raw| == CHARACTERISTICS_BYTES && i < CHARACTERISTICS_BYTES && j < 8
    ensures MsbBit(raw, 8 * i + j) == OctetBit(raw[i], j)
  {
    assert (8 * i + j) / 8 == i && (8 * i + j) % 8 == j;
  }

  /** Each decoded flag is read from the msb0 bit position the source declares,
      2 to 31, whatever the reserved bits hold. */
  lemma UnpackedFlagPositions(raw: seq<Octet>)
    requires |raw| == CHARACTERISTICS_BYTES
    ensures Unpack(raw).unknown == MsbBit(raw, 2) &&
      Unpack(raw).characteristicsUnsupported == MsbBit(raw, 3) &&
      Unpack(raw).isaSupported == MsbBit(raw, 4) &&
      Unpack(raw).mcaSupported == MsbBit(raw, 5) &&
      Unpack(raw).eisaSupported == MsbBit(raw, 6) &&
      Unpack(raw).pciSupported == MsbBit(raw, 7) &&
      Unpack(raw).pcmciaSupported == MsbBit(raw, 8) &&
      Unpack(raw).pnpSupported == MsbBit(raw, 9) &&
      Unpack(raw).apmSupported == MsbBit(raw, 10) &&
      Unpack(raw).biosUpgradeable == MsbBit(raw, 11) &&
      Unpack(raw).biosShadowingAllowed == MsbBit(raw, 12) &&
      Unpack(raw).vesaSupported == MsbBit(raw, 13) &&
      Unpack(raw).escdSupported == MsbBit(raw, 14) &&
      Unpack(raw).cdBootSupported == MsbBit(raw, 15) &&
      Unpack(raw).selectBootSupported == MsbBit(raw, 16) &&
      Unpack(raw).biosRomSocketed == MsbBit(raw, 17) &&
      Unpack(raw).pcmciaBootSupported == MsbBit(raw, 18) &&
      Unpack(raw).eddSupported == MsbBit(raw, 19) &&
      Unpack(raw).floppyNecSupported == MsbBit(raw, 20) &&
      Unpack(raw).floppyToshibaSupported == MsbBit(raw, 21) &&
      Unpack(raw).floppy360kbSupported == MsbBit(raw, 22) &&
      Unpack(raw).floppy1_2mbSupported == MsbBit(raw, 23) &&
      Unpack(raw).floppy720kbSupported == MsbBit(raw, 24) &&
      Unpack(raw).floppy2_88mbSupported == MsbBit(raw, 25) &&
      Unpack(raw).printScreenServiceSupported == MsbBit(raw, 26) &&
      Unpack(raw).keyboard8042Supported == MsbBit(raw, 27) &&
      Unpack(raw).serialServiceSupported == MsbBit(raw, 28) &&
      Unpack(raw).printerServiceSupported == MsbBit(raw, 29) &&
      Unpack(raw).cgaServiceSupported == MsbBit(raw, 30) &&
      Unpack(raw).necPc98 == MsbBit(raw, 31)
  {
  }

  /** Each flag is packed at the msb0 bit position the source declares, 2 to 31. */
  lemma PackedFlagPositions(c: BiosCharacteristics)
    ensures MsbBit(Pack(c), 2) == c.unknown &&
      MsbBit(Pack(c), 3) == c.characteristicsUnsupported &&
      MsbBit(Pack(c), 4) == c.isaSupported &&
      MsbBit(Pack(c), 5) == c.mcaSupported &&
      MsbBit(Pack(c), 6) == c.eisaSupported &&
      MsbBit(Pack(c), 7) == c.pciSupported &&
      MsbBit(Pack(c), 8) == c.pcmciaSupported &&
      MsbBit(Pack(c), 9) == c.pnpSupported &&
      MsbBit(Pack(c), 10) == c.apmSupported &&
      MsbBit(Pack(c), 11) == c.biosUpgradeable &&
      MsbBit(Pack(c), 12) == c.biosShadowingAllowed &&
      MsbBit(Pack(c), 13) == c.vesaSupported &&
      MsbBit(Pack(c), 14) == c.escdSupported &&
      MsbBit(Pack(c), 15) == c.cdBootSupported &&
      MsbBit(Pack(c), 16) == c.selectBootSupported &&
      MsbBit(Pack(c), 17) == c.biosRomSocketed &&
      MsbBit(Pack(c), 18) == c.pcmciaBootSupported &&
      MsbBit(Pack(c), 19) == c.eddSupported &&
      MsbBit(Pack(c), 20) == c.floppyNecSupported &&
      MsbBit(Pack(c), 21) == c.floppyToshibaSupported &&
      MsbBit(Pack(c), 22) == c.floppy360kbSupported &&
      MsbBit(Pack(c), 23) == c.floppy1_2mbSupported &&
      MsbBit(Pack(c), 24) == c.floppy720kbSupported &&
      MsbBit(Pack(c), 25) == c.floppy2_88mbSupported &&
      MsbBit(Pack(c), 26) == c.printScreenServiceSupported &&
      MsbBit(Pack(c), 27) == c.keyboard8042Supported &&
      MsbBit(Pack(c), 28) == c.serialServiceSupported &&
      MsbBit(Pack(c), 29) == c.printerServiceSupported &&
      MsbBit(Pack(c), 30) == c.cgaServiceSupported &&
      MsbBit(Pack(c), 31) == c.necPc98
  {
  }

  /** Unpack(Pack(c)) == c: no flag is lost or moved by packing. */
  lemma UnpackPack(c: BiosCharacteristics)
    ensures Unpack(Pack(c)) == c
  {
  }

  /** Every reserved bit of a packed field is zero. */
  lemma PackClearsReserved(c: BiosCharacteristics)
    ensures ReservedClear(Pack(c))
  {
  }

  /** A byte of the vendor spans (bytes 4 to 7) of a field whose reserved bits are
      clear is zero. */
  lemma ReservedByteZero(raw: seq<Octet>, i: nat)
    requires |raw| == CHARACTERISTICS_BYTES && ReservedClear(raw)
    requires 4 <= i < CHARACTERISTICS_BYTES
    ensures raw[i] == ZERO_OCTET
  {
    MsbBitOf(raw, i, 0); MsbBitOf(raw, i, 1); MsbBitOf(raw, i, 2); MsbBitOf(raw, i, 3);
    MsbBitOf(raw, i, 4); MsbBitOf(raw, i, 5); MsbBitOf(raw, i, 6); MsbBitOf(raw, i, 7);
    assert IsReservedBit(8 * i) && IsReservedBit(8 * i + 7);
  }

  /** The flags of a raw field re-encode to that field exactly when its reserved
      spans are zero: packing never writes anything but zero there. */
  lemma PackUnpack(raw: seq<Octet>)
    requires |raw| == CHARACTERISTICS_BYTES
    ensures Pack(Unpack(raw)) == raw <==> ReservedClear(raw)
  {
    var packed := Pack(Unpack(raw));
    if ReservedClear(raw) {
      assert !MsbBit(raw, 0) && !MsbBit(raw, 1);
      ReservedByteZero(raw, 4);
      ReservedByteZero(raw, 5);
      ReservedByteZero(raw, 6);
      ReservedByteZero(raw, 7);
      assert packed == raw;
    }
    if packed == raw {
      PackClearsReserved(Unpack(raw));
    }
  }
}

=== FILE: dumper.dfy ===
/** The dump of `main` (src/main.rs:218-275): walk the table of a container and
    show every structure the walk goes through, decoded by its type. */
module Dumper {
  import opened Bytes
  import opened Structures
  import opened Walker
  import opened WalkFacts

  /** Record k is what the decoder makes of the bytes at the offset of visit k. */
  predicate Shows(buf: seq<u8>, visits: seq<Visit>, records: seq<Record>) {
    |records| == |visits| &&
    forall k :: 0 <= k < |visits| ==>
      visits[k].at + HEADER_SIZE <= |buf| && DecodeRecord(buf, visits[k].at) == Some(records[k])
  }

  /** The structure at a cursor whose fixed part lies in the buffer. */
  function RecordAt(buf: seq<u8>, at: nat): (r: Record)
    requires at + HEADER_SIZE <= |buf| && FixedPartFits(buf, at)
    ensures DecodeRecord(buf, at) == Some(r)
  {
    FixedPartDecodes(buf, at);
    DecodeRecord(buf, at).value
  }

  /** Walk the table and decode each structure on the way: the trace is the walk
      of the table, and each visited structure comes with its decoded record. */
  method Walk(buf: seq<u8>) returns (visits: seq<Visit>, records: seq<Record>, status: Status)
    ensures Trace(visits, status) == WalkTable(buf)
    ensures Shows(buf, visits, records)
  {
    if |buf| < TABLE_OFFSET {
      return [], [], Failed(TruncatedContainer);
    }
    var end := TABLE_OFFSET + ReadU32(buf, 4);
    WalkTableStart(buf);
    visits, status := WalkStructures(buf, end, TABLE_OFFSET);
    VisitsDecode(buf, end, TABLE_OFFSET);
    records := seq(|visits|, k requires 0 <= k < |visits| => RecordAt(buf, visits[k].at));
  }
}

=== FILE: layout.dfy ===
/** A repr(C) structure seen as a list of little-endian unsigned fields, each
    given by its width in bytes. The SMBIOS structures of src/main.rs are all of
    this kind: every field is naturally aligned, so repr(C) places them back to
    back and field k starts at the sum of the widths before it. */
module Layout {
  import opened Bytes

  /** The start of field k: the widths of the fields before it added up. With
      k == |widths| it is the size of the whole structure. */
  function OffsetOf(widths: seq<nat>, k: nat): nat
    requires k <= |widths|
  {
    if k == 0 then 0 else OffsetOf(widths, k - 1) + widths[k - 1]
  }

  function Size(widths: seq<nat>): nat {
    OffsetOf(widths, |widths|)
  }

  lemma {:induction false} OffsetMonotone(widths: seq<nat>, j: nat, k: nat)
    requires j <= k <= |widths|
    ensures OffsetOf(widths, j) <= OffsetOf(widths, k)
  {
    if j < k {
      OffsetMonotone(widths, j, k - 1);
    }
  }

  /** Fields 0 to k - 1 each start at a multiple of their own width, so that repr(C)
      inserts no padding before them (fields of width 1, 2, 4 and 8 are aligned to
      their size). */
  predicate AlignedUpTo(widths: seq<nat>, k: nat)
    requires k <= |widths|
  {
    k == 0 ||
    (AlignedUpTo(widths, k - 1) && (widths[k - 1] == 0 || OffsetOf(widths, k - 1) % widths[k - 1] == 0))
  }

  predicate NaturallyAligned(widths: seq<nat>) {
    AlignedUpTo(widths, |widths|)
  }

  /** Field values that fit their widths. */
  predicate Fits(values: seq<nat>, widths: seq<nat>) {
    |values| == |widths| && forall k :: 0 <= k < |values| ==> values[k] < Pow256(widths[k])
  }

  /** Field k of a structure stored at the start of s. */
  function FieldValue(s: seq<u8>, widths: seq<nat>, k: nat): (v: nat)
    requires Size(widths) <= |s| && k < |widths|
    ensures v < Pow256(widths[k])
  {
    OffsetMonotone(widths, k + 1, |widths|);
    ReadLe(s, OffsetOf(widths, k), widths[k])
  }

  /** Reads every field at its offset from the start of s. */
  function DecodeFields(s: seq<u8>, widths: seq<nat>): (values: seq<nat>)
    requires Size(widths) <= |s|
    ensures Fits(values, widths)
  {
    seq(|widths|, k requires 0 <= k < |widths| => FieldValue(s, widths, k))
  }

  /** Field k is the little-endian value of the bytes at its offset. */
  lemma FieldAt(s: seq<u8>, widths: seq<nat>, k: nat)
    requires Size(widths) <= |s| && k < |widths|
    ensures OffsetOf(widths, k) + widths[k] <= |s|
    ensures DecodeFields(s, widths)[k] == ReadLe(s, OffsetOf(widths, k), widths[k])
  {
    OffsetMonotone(widths, k + 1, |widths|);
    assert DecodeFields(s, widths)[k] == FieldValue(s, widths, k);
  }

  /** The pieces laid one after the other, the first n of them. */
  function Concat(pieces: seq<seq<u8>>, n: nat): seq<u8>
    requires n <= |pieces|
  {
    if n == 0 then [] else Concat(pieces, n - 1) + pieces[n - 1]
  }

  /** Piece k is as long as field k is wide. */
  predicate Shaped(pieces: seq<seq<u8>>, widths: seq<nat>) {
    |pieces| == |widths| && forall k :: 0 <= k < |pieces| ==> |pieces[k]| == widths[k]
  }

  /** The encoding of every field. */
  function FieldBytes(values: seq<nat>, widths: seq<nat>): (pieces: seq<seq<u8>>)
    requires Fits(values, widths)
    ensures Shaped(pieces, widths)
  {
    seq(|widths|, k requires 0 <= k < |widths| => LeBytes(values[k], widths[k]))
  }

  /** Writes every field at its offset. */
  function EncodeFields(values: seq<nat>, widths: seq<nat>): (s: seq<u8>)
    requires Fits(values, widths)
    ensures |s| == Size(widths)
  {
    ConcatLength(FieldBytes(values, widths), widths, |widths|);
    Concat(FieldBytes(values, widths), |widths|)
  }

  lemma SliceOfFront(a: seq<u8>, b: seq<u8>, i: nat, j: nat)
    requires i <= j <= |a|
    ensures (a + b)[i..j] == a[i..j]
  {
  }

  lemma SliceOfBack(a: seq<u8>, b: seq<u8>)
    ensures (a + b)[|a|..|a| + |b|] == b
  {
  }

  lemma PrefixSplit(s: seq<u8>, i: nat, j: nat)
    requires i <= j <= |s|
    ensures s[..j] == s[..i] + s[i..j]
  {
  }

  lemma {:induction false} ConcatLength(pieces: seq<seq<u8>>, widths: seq<nat>, n: nat)
    requires Shaped(pieces, widths) && n <= |widths|
    ensures |Concat(pieces, n)| == OffsetOf(widths, n)
  {
    if n > 0 {
      ConcatLength(pieces, widths, n - 1);
    }
  }

  /** Piece k of a concatenation sits between the offsets of fields k and k + 1. */
  lemma {:induction false} ConcatPiece(pieces: seq<seq<u8>>, widths: seq<nat>, n: nat, k: nat)
    requires Shaped(pieces, widths) && k < n <= |widths|
    ensures OffsetOf(widths, k + 1) <= OffsetOf(widths, n) == |Concat(pieces, n)|
    ensures Concat(pieces, n)[OffsetOf(widths, k)..OffsetOf(widths, k + 1)] == pieces[k]
  {
    OffsetMonotone(widths, k + 1, n);
    ConcatLength(pieces, widths, n);
    ConcatLength(pieces, widths, n - 1);
    var front, last := Concat(pieces, n - 1), pieces[n - 1];
    if k < n - 1 {
      ConcatPiece(pieces, widths, n - 1, k);
      SliceOfFront(front, last, OffsetOf(widths, k), OffsetOf(widths, k + 1));
    } else {
      SliceOfBack(front, last);
    }
  }

  lemma Assemble(e: seq<u8>, front: seq<u8>, piece: seq<u8>, s: seq<u8>, i: nat, j: nat)
    requires i <= j <= |s|
    requires e == front + piece && front == s[..i] && piece == s[i..j]
    ensures e == s[..j]
  {
    PrefixSplit(s, i, j);
  }

  /** Piece k holds the bytes of s between the offsets of fields k and k + 1. */
  predicate IsSliceAt(s: seq<u8>, widths: seq<nat>, pieces: seq<seq<u8>>, k: nat)
    requires |pieces| == |widths| && k < |widths|
  {
    OffsetOf(widths, k + 1) <= |s| && pieces[k] == s[OffsetOf(widths, k)..OffsetOf(widths, k + 1)]
  }

  /** Laying out the slices of s between consecutive offsets rebuilds s. */
  lemma {:induction false} ConcatSlices(s: seq<u8>, widths: seq<nat>, pieces: seq<seq<u8>>, n: nat)
    requires Size(widths) <= |s| && |pieces| == |widths| && n <= |widths|
    requires forall k :: 0 <= k < |widths| ==> IsSliceAt(s, widths, pieces, k)
    ensures OffsetOf(widths, n) <= |s|
    ensures Concat(pieces, n) == s[..OffsetOf(widths, n)]
  {
    OffsetMonotone(widths, n, |widths|);
    if n > 0 {
      ConcatSlices(s, widths, pieces, n - 1);
      assert IsSliceAt(s, widths, pieces, n - 1);
      Assemble(Concat(pieces, n), Concat(pieces, n - 1), pieces[n - 1], s,
               OffsetOf(widths, n - 1), OffsetOf(widths, n));
    }
  }

  /** Field k reads as v when the bytes at its offset are the encoding of v. */
  lemma FieldReadsAs(s: seq<u8>, widths: seq<nat>, k: nat, v: nat)
    requires Size(widths) <= |s| && k < |widths| && v < Pow256(widths[k])
    requires OffsetOf(widths, k + 1) <= |s|
    requires s[OffsetOf(widths, k)..OffsetOf(widths, k + 1)] == LeBytes(v, widths[k])
    ensures DecodeFields(s, widths)[k] == v
  {
    FieldAt(s, widths, k);
    ReadBackLe(s, OffsetOf(widths, k), v, widths[k]);
  }

  /** The bytes of field k in an encoding are the encoding of value k. */
  lemma EncodedPiece(values: seq<nat>, widths: seq<nat>, k: nat)
    requires Fits(values, widths) && k < |widths|
    ensures OffsetOf(widths, k + 1) <= |EncodeFields(values, widths)|
    ensures EncodeFields(values, widths)[OffsetOf(widths, k)..OffsetOf(widths, k + 1)]
      == LeBytes(values[k], widths[k])
  {
    ConcatPiece(FieldBytes(values, widths), widths, |widths|, k);
  }

  /** Field k of an encoding, followed by anything, reads back as the value written. */
  lemma FieldEncodedAt(values: seq<nat>, widths: seq<nat>, rest: seq<u8>, k: nat)
    requires Fits(values, widths) && k < |widths|
    ensures Size(widths) <= |EncodeFields(values, widths) + rest|
    ensures DecodeFields(EncodeFields(values, widths) + rest, widths)[k] == values[k]
  {
    var e := EncodeFields(values, widths);
    var i, j := OffsetOf(widths, k), OffsetOf(widths, k + 1);
    EncodedPiece(values, widths, k);
    SliceOfFront(e, rest, i, j);
    FieldReadsAs(e + rest, widths, k, values[k]);
  }

  /** Decoding what was encoded gives the fields back, whatever follows them. */
  lemma DecodeEncodeFields(values: seq<nat>, widths: seq<nat>, rest: seq<u8>)
    requires Fits(values, widths)
    ensures Size(widths) <= |EncodeFields(values, widths) + rest|
    ensures DecodeFields(EncodeFields(values, widths) + rest, widths) == values
  {
    var s := EncodeFields(values, widths) + rest;
    forall k | 0 <= k < |widths|
      ensures DecodeFields(s, widths)[k] == values[k]
    {
      FieldEncodedAt(values, widths, rest, k);
    }
  }

  /** Encoding the decoded fields reproduces the bytes they were read from. */
  lemma EncodeDecodeFields(s: seq<u8>, widths: seq<nat>)
    requires Size(widths) <= |s|
    ensures EncodeFields(DecodeFields(s, widths), widths) == s[..Size(widths)]
  {
    var values := DecodeFields(s, widths);
    var pieces := FieldBytes(values, widths);
    forall k | 0 <= k < |widths|
      ensures IsSliceAt(s, widths, pieces, k)
    {
      FieldAt(s, widths, k);
      WriteBackLe(s, OffsetOf(widths, k), widths[k]);
    }
    ConcatSlices(s, widths, pieces, |widths|);
  }
}

=== FILE: octets.dfy ===
/** The bit view of a byte: its eight bits, most significant first, the order
    that `bit_numbering = "msb0"` uses in src/main.rs. */
module Octets {
  import opened Bytes

  function Pow2(n: nat): (r: nat)
    ensures r >= 1
  {
    if n == 0 then 1 else 2 * Pow2(n - 1)
  }

  /** The w-bit binary expansion of b, most significant bit first. */
  function BitsOf(b: nat, w: nat): (bs: seq<bool>)
    requires b < Pow2(w)
    ensures |bs| == w
  {
    if w == 0 then []
    else
      var half := Pow2(w - 1);
      [b >= half] + BitsOf(if b >= half then b - half else b, w - 1)
  }

  /** The number whose binary expansion, most significant bit first, is bs. */
  function ValueOf(bs: seq<bool>): (v: nat)
    ensures v < Pow2(|bs|)
  {
    if bs == [] then 0 else (if bs[0] then Pow2(|bs| - 1) else 0) + ValueOf(bs[1..])
  }

  /** Expanding a number and reading the expansion back gives the number. */
  lemma {:induction false} ValueOfBitsOf(b: nat, w: nat)
    requires b < Pow2(w)
    ensures ValueOf(BitsOf(b, w)) == b
  {
    if w > 0 {
      var half := Pow2(w - 1);
      var rest := if b >= half then b - half else b;
      ValueOfBitsOf(rest, w - 1);
      assert BitsOf(b, w)[1..] == BitsOf(rest, w - 1);
    }
  }

  /** Reading an expansion and expanding the value again gives the expansion. */
  lemma {:induction false} BitsOfValueOf(bs: seq<bool>)
    ensures BitsOf(ValueOf(bs), |bs|) == bs
  {
    if bs != [] {
      BitsOfValueOf(bs[1..]);
      assert bs == [bs[0]] + bs[1..];
    }
  }

  /** The eight bits of a byte, most significant first. */
  datatype Octet = Octet(b0: bool, b1: bool, b2: bool, b3: bool, b4: bool, b5: bool, b6: bool, b7: bool)

  const ZERO_OCTET := Octet(false, false, false, false, false, false, false, false)

  function OctetBits(o: Octet): (bs: seq<bool>)
    ensures |bs| == 8
  {
    [o.b0, o.b1, o.b2, o.b3, o.b4, o.b5, o.b6, o.b7]
  }

  /** The bits of byte b. */
  function ToOctet(b: u8): Octet {
    assert Pow2(8) == 256;
    var bs := BitsOf(b, 8);
    Octet(bs[0], bs[1], bs[2], bs[3], bs[4], bs[5], bs[6], bs[7])
  }

  /** The byte with bits o. */
  function FromOctet(o: Octet): u8 {
    assert Pow2(8) == 256;
    ValueOf(OctetBits(o))
  }

  /** Reading the bits of a byte and assembling them again gives the byte back. */
  lemma FromOctetToOctet(b: u8)
    ensures FromOctet(ToOctet(b)) == b
  {
    assert Pow2(8) == 256;
    var bs := BitsOf(b, 8);
    assert OctetBits(ToOctet(b)) == bs;
    ValueOfBitsOf(b, 8);
  }

  /** Assembling a byte from bits and reading them again gives the bits back. */
  lemma ToOctetFromOctet(o: Octet)
    ensures ToOctet(FromOctet(o)) == o
  {
    BitsOfValueOf(OctetBits(o));
  }

  /** The bits of each byte of a byte string. */
  function OctetsOf(bs: seq<u8>): (os: seq<Octet>)
    ensures |os| == |bs|
  {
    seq(|bs|, i requires 0 <= i < |bs| => ToOctet(bs[i]))
  }

  /** The bytes with the given bits. */
  function BytesOf(os: seq<Octet>): (bs: seq<u8>)
    ensures |bs| == |os|
  {
    seq(|os|, i requires 0 <= i < |os| => FromOctet(os[i]))
  }

  lemma OctetsOfBytesOf(os: seq<Octet>)
    ensures OctetsOf(BytesOf(os)) == os
  {
    forall i | 0 <= i < |os|
      ensures OctetsOf(BytesOf(os))[i] == os[i]
    {
      ToOctetFromOctet(os[i]);
    }
  }

  lemma BytesOfOctetsOf(bs: seq<u8>)
    ensures BytesOf(OctetsOf(bs)) == bs
  {
    forall i | 0 <= i < |bs|
      ensures BytesOf(OctetsOf(bs))[i] == bs[i]
    {
      FromOctetToOctet(bs[i]);
    }
  }
}

=== FILE: structures.dfy ===
/** The structures of the raw SMBIOS table that src/main.rs declares: the
    container prefix `Smbios`, the 4-byte `SmbiosHeader`, the type enum
    `SmbiosHeaderType`, and the three structures the walker shows field by field
    (Processor, Baseboard and BIOS Information). Each is decoded field by field from
    bytes, at the repr(C) offsets, rather than by reinterpreting memory. */
module Structures {
  import opened Bytes
  import opened Layout
  import opened Octets
  import opened Characteristics

  datatype Option<T> = None | Some(value: T)

  // ---------------------------------------------------------------------------
  // Structure types (SmbiosHeaderType, src/main.rs:39-56)

  datatype HeaderType =
    | Bios | SysInfo | BoardInfo | SystemEnclosure | ProcessorInfo | MemModuleInfo
    | CacheInfo | OemString | MemoryDevice | MemoryArrayMappedAddress
    | BuiltInPointDevice | PortableBattery | Break

  /** The discriminant of each variant of the repr(u8) enum. */
  function Tag(t: HeaderType): u8 {
    match t
    case Bios => 0
    case SysInfo => 1
    case BoardInfo => 2
    case SystemEnclosure => 3
    case ProcessorInfo => 4
    case MemModuleInfo => 6
    case CacheInfo => 7
    case OemString => 11
    case MemoryDevice => 17
    case MemoryArrayMappedAddress => 19
    case BuiltInPointDevice => 21
    case PortableBattery => 22
    case Break => 127
  }

  /** The variant a type byte names; bytes that are no discriminant of the enum
      name none. */
  function ParseType(tag: u8): (t: Option<HeaderType>)
    ensures t.Some? ==> Tag(t.value) == tag
  {
    match tag
    case 0 => Some(Bios)
    case 1 => Some(SysInfo)
    case 2 => Some(BoardInfo)
    case 3 => Some(SystemEnclosure)
    case 4 => Some(ProcessorInfo)
    case 6 => Some(MemModuleInfo)
    case 7 => Some(CacheInfo)
    case 11 => Some(OemString)
    case 17 => Some(MemoryDevice)
    case 19 => Some(MemoryArrayMappedAddress)
    case 21 => Some(BuiltInPointDevice)
    case 22 => Some(PortableBattery)
    case 127 => Some(Break)
    case _ => None
  }

  /** Every variant is recognised from its own discriminant. */
  lemma ParseTag(t: HeaderType)
    ensures ParseType(Tag(t)) == Some(t)
  {
  }

  // ---------------------------------------------------------------------------
  // Header (SmbiosHeader, src/main.rs:30-37)

  const HEADER_SIZE := 4
  const HEADER_WIDTHS: seq<nat> := [1, 1, 2]

  /** The type byte is kept as a plain byte: the walker also meets values that are
      not in the enum. */
  datatype Header = Header(kind: u8, length: u8, handle: u16)

  /** type, length and handle start at 0, 1 and 2, with no padding. */
  lemma HeaderLayout()
    ensures Size(HEADER_WIDTHS) == HEADER_SIZE
    ensures OffsetOf(HEADER_WIDTHS, 1) == 1 && OffsetOf(HEADER_WIDTHS, 2) == 2
    ensures NaturallyAligned(HEADER_WIDTHS)
  {
    assert OffsetOf(HEADER_WIDTHS, 1) == 1;
    assert OffsetOf(HEADER_WIDTHS, 2) == 2;
    assert AlignedUpTo(HEADER_WIDTHS, 1);
    assert AlignedUpTo(HEADER_WIDTHS, 2);
  }

  /** The header at offset `at`: type, length and the little-endian handle. */
  function HeaderAt(buf: seq<u8>, at: nat): Header
    requires at + HEADER_SIZE <= |buf|
  {
    Header(buf[at], buf[at + 1], ReadU16(buf, at + 2))
  }

  function EncodeHeader(h: Header): (bs: seq<u8>)
    ensures |bs| == HEADER_SIZE
  {
    [h.kind, h.length] + U16Bytes(h.handle)
  }

  /** The handle is the byte at c + 2 plus 256 times the byte at c + 3. */
  lemma HeaderFields(buf: seq<u8>, at: nat)
    requires at + HEADER_SIZE <= |buf|
    ensures HeaderAt(buf, at) == Header(buf[at], buf[at + 1], buf[at + 2] as int + 256 * buf[at + 3] as int)
  {
    ReadLeWord(buf, at + 2);
  }

  /** A structure whose layout starts with the header's three fields has its
      header in them. */
  lemma HeaderOfStructure(s: seq<u8>, widths: seq<nat>)
    requires |widths| >= 3 && widths[0] == 1 && widths[1] == 1 && widths[2] == 2
    requires Size(widths) <= |s|
    ensures HEADER_SIZE <= |s|
    ensures var f := DecodeFields(s, widths);
      HeaderAt(s, 0) == Header(f[0], f[1], f[2])
  {
    assert OffsetOf(widths, 1) == 1;
    assert OffsetOf(widths, 2) == 2;
    FieldAt(s, widths, 0);
    FieldAt(s, widths, 1);
    FieldAt(s, widths, 2);
    ReadLeByte(s, 0);
    ReadLeByte(s, 1);
  }

  /** Decoding an encoded header gives it back, whatever follows it. */
  lemma HeaderRoundTrip(h: Header, rest: seq<u8>)
    ensures HeaderAt(EncodeHeader(h) + rest, 0) == h
  {
    var s := EncodeHeader(h) + rest;
    assert s[2..4] == U16Bytes(h.handle);
  }

  /** Encoding a decoded header reproduces its four bytes. */
  lemma HeaderBytesRoundTrip(buf: seq<u8>, at: nat)
    requires at + HEADER_SIZE <= |buf|
    ensures EncodeHeader(HeaderAt(buf, at)) == buf[at..at + HEADER_SIZE]
  {
    WriteBackLe(buf, at + 2, 2);
  }

  // ---------------------------------------------------------------------------
  // Container prefix (Smbios, src/main.rs:18-28)

  const CONTAINER_WIDTHS: seq<nat> := [1, 1, 1, 1, 4]

  /** The structure table starts at the `table_data` field, right after the
      8-byte prefix (src/main.rs:218). */
  const TABLE_OFFSET := 8

  datatype Container = Container(
    callingMethod: u8, majorVersion: u8, minorVersion: u8, dmiRevision: u8, length: u32)

  /** The four version bytes and the u32 length start at 0, 1, 2, 3 and 4, and the
      pointer-aligned `table_data` field at 8. */
  lemma ContainerLayout()
    ensures Size(CONTAINER_WIDTHS) == TABLE_OFFSET
    ensures OffsetOf(CONTAINER_WIDTHS, 4) == 4
    ensures NaturallyAligned(CONTAINER_WIDTHS)
  {
    assert OffsetOf(CONTAINER_WIDTHS, 1) == 1;
    assert OffsetOf(CONTAINER_WIDTHS, 2) == 2;
    assert OffsetOf(CONTAINER_WIDTHS, 3) == 3;
    assert OffsetOf(CONTAINER_WIDTHS, 4) == 4;
    assert AlignedUpTo(CONTAINER_WIDTHS, 1);
    assert AlignedUpTo(CONTAINER_WIDTHS, 2);
    assert AlignedUpTo(CONTAINER_WIDTHS, 3);
    assert AlignedUpTo(CONTAINER_WIDTHS, 4);
  }

  /** The container prefix, or None when the buffer is too short to hold it. */
  function DecodeContainer(buf: seq<u8>): (c: Option<Container>)
    ensures c.None? <==> |buf| < TABLE_OFFSET
  {
    if |buf| < TABLE_OFFSET then None
    else
      ContainerLayout();
      var f := DecodeFields(buf, CONTAINER_WIDTHS);
      Some(Container(f[0], f[1], f[2], f[3], f[4]))
  }

  function ContainerValues(c: Container): (f: seq<nat>)
    ensures Fits(f, CONTAINER_WIDTHS)
  {
    [c.callingMethod, c.majorVersion, c.minorVersion, c.dmiRevision, c.length]
  }

  function EncodeContainer(c: Container): (bs: seq<u8>)
    ensures |bs| == TABLE_OFFSET
  {
    ContainerLayout();
    EncodeFields(ContainerValues(c), CONTAINER_WIDTHS)
  }

  /** One past the last byte of the structure table (src/main.rs:219). */
  function TableEnd(c: Container): nat {
    TABLE_OFFSET + c.length
  }

  /** The table length is the little-endian u32 in bytes 4 to 7, so the table ends
      at 8 + that length. */
  lemma ContainerLength(buf: seq<u8>)
    requires |buf| >= TABLE_OFFSET
    ensures DecodeContainer(buf).Some?
    ensures DecodeContainer(buf).value.length == ReadU32(buf, 4)
    ensures TableEnd(DecodeContainer(buf).value) == 8 + ReadU32(buf, 4)
  {
    ContainerLayout();
    FieldAt(buf, CONTAINER_WIDTHS, 4);
  }

  /** Decoding an encoded prefix gives it back, whatever table follows it. */
  lemma ContainerRoundTrip(c: Container, table: seq<u8>)
    ensures DecodeContainer(EncodeContainer(c) + table) == Some(c)
  {
    ContainerLayout();
    DecodeEncodeFields(ContainerValues(c), CONTAINER_WIDTHS, table);
  }

  /** Encoding a decoded prefix reproduces its eight bytes. */
  lemma ContainerBytesRoundTrip(buf: seq<u8>)
    requires |buf| >= TABLE_OFFSET
    ensures EncodeContainer(DecodeContainer(buf).value) == buf[..TABLE_OFFSET]
  {
    ContainerLayout();
    var f := DecodeFields(buf, CONTAINER_WIDTHS);
    EncodeDecodeFields(buf, CONTAINER_WIDTHS);
    assert ContainerValues(DecodeContainer(buf).value) == f;
  }

  // ---------------------------------------------------------------------------
  // Processor Information, type 4 (SmbiosProcessorInfo, src/main.rs:58-75)

  const PROCESSOR_WIDTHS: seq<nat> := [1, 1, 2, 1, 1, 1, 1, 8, 1, 1, 2, 2, 2, 1, 1]
  const PROCESSOR_SIZE := 26

  datatype ProcessorInformation = ProcessorInformation(
    header: Header,
    socket: u8,
    processorType: u8,
    family: u8,
    manufacturer: u8,
    id: u64,
    version: u8,
    voltage: u8,
    extClock: u16,
    maxSpeed: u16,
    currentSpeed: u16,
    status: u8,
    processorUpgrade: u8)

  /** The repr(C) layout: fields at 0, 1, 2, 4, 5, 6, 7, 8, 16, 17, 18, 20, 22, 24
      and 25, each naturally aligned so that no padding is inserted, 26 bytes in
      all. */
  lemma ProcessorLayout()
    ensures Size(PROCESSOR_WIDTHS) == PROCESSOR_SIZE
    ensures OffsetOf(PROCESSOR_WIDTHS, 3) == 4 && OffsetOf(PROCESSOR_WIDTHS, 4) == 5
    ensures OffsetOf(PROCESSOR_WIDTHS, 5) == 6 && OffsetOf(PROCESSOR_WIDTHS, 6) == 7
    ensures OffsetOf(PROCESSOR_WIDTHS, 7) == 8 && OffsetOf(PROCESSOR_WIDTHS, 8) == 16
    ensures OffsetOf(PROCESSOR_WIDTHS, 9) == 17 && OffsetOf(PROCESSOR_WIDTHS, 10) == 18
    ensures OffsetOf(PROCESSOR_WIDTHS, 11) == 20 && OffsetOf(PROCESSOR_WIDTHS, 12) == 22
    ensures OffsetOf(PROCESSOR_WIDTHS, 13) == 24 && OffsetOf(PROCESSOR_WIDTHS, 14) == 25
    ensures NaturallyAligned(PROCESSOR_WIDTHS)
  {
    assert OffsetOf(PROCESSOR_WIDTHS, 1) == 1;
    assert OffsetOf(PROCESSOR_WIDTHS, 2) == 2;
    assert OffsetOf(PROCESSOR_WIDTHS, 3) == 4;
    assert OffsetOf(PROCESSOR_WIDTHS, 4) == 5;
    assert OffsetOf(PROCESSOR_WIDTHS, 5) == 6;
    assert OffsetOf(PROCESSOR_WIDTHS, 6) == 7;
    assert OffsetOf(PROCESSOR_WIDTHS, 7) == 8;
    assert OffsetOf(PROCESSOR_WIDTHS, 8) == 16;
    assert OffsetOf(PROCESSOR_WIDTHS, 9) == 17;
    assert OffsetOf(PROCESSOR_WIDTHS, 10) == 18;
    assert OffsetOf(PROCESSOR_WIDTHS, 11) == 20;
    assert OffsetOf(PROCESSOR_WIDTHS, 12) == 22;
    assert OffsetOf(PROCESSOR_WIDTHS, 13) == 24;
    assert OffsetOf(PROCESSOR_WIDTHS, 14) == 25;
    assert AlignedUpTo(PROCESSOR_WIDTHS, 1);
    assert AlignedUpTo(PROCESSOR_WIDTHS, 2);
    assert AlignedUpTo(PROCESSOR_WIDTHS, 3);
    assert AlignedUpTo(PROCESSOR_WIDTHS, 4);
    assert AlignedUpTo(PROCESSOR_WIDTHS, 5);
    assert AlignedUpTo(PROCESSOR_WIDTHS, 6);
    assert AlignedUpTo(PROCESSOR_WIDTHS, 7);
    assert AlignedUpTo(PROCESSOR_WIDTHS, 8);
    assert AlignedUpTo(PROCESSOR_WIDTHS, 9);
    assert AlignedUpTo(PROCESSOR_WIDTHS, 10);
    assert AlignedUpTo(PROCESSOR_WIDTHS, 11);
    assert AlignedUpTo(PROCESSOR_WIDTHS, 12);
    assert AlignedUpTo(PROCESSOR_WIDTHS, 13);
    assert AlignedUpTo(PROCESSOR_WIDTHS, 14);
  }

  /** The fixed part of a Processor Information structure stored at the start of s. */
  function DecodeProcessor(s: seq<u8>): ProcessorInformation
    requires |s| >= PROCESSOR_SIZE
  {
    ProcessorLayout();
    Pow256Widths();
    var f := DecodeFields(s, PROCESSOR_WIDTHS);
    ProcessorInformation(Header(f[0], f[1], f[2]), f[3], f[4], f[5], f[6], f[7], f[8], f[9],
                         f[10], f[11], f[12], f[13], f[14])
  }

  function ProcessorValues(p: ProcessorInformation): (f: seq<nat>)
    ensures Fits(f, PROCESSOR_WIDTHS)
  {
    Pow256Widths();
    [p.header.kind, p.header.length, p.header.handle, p.socket, p.processorType, p.family,
     p.manufacturer, p.id, p.version, p.voltage, p.extClock, p.maxSpeed, p.currentSpeed,
     p.status, p.processorUpgrade]
  }

  function EncodeProcessor(p: ProcessorInformation): (s: seq<u8>)
    ensures |s| == PROCESSOR_SIZE
  {
    ProcessorLayout();
    EncodeFields(ProcessorValues(p), PROCESSOR_WIDTHS)
  }

  lemma Fields15(f: seq<nat>)
    requires |f| == 15
    ensures f == [f[0], f[1], f[2], f[3], f[4], f[5], f[6], f[7], f[8], f[9], f[10], f[11], f[12], f[13], f[14]]
  {
  }

  /** Field k of a layout, when it is one byte wide, is the byte at its offset. */
  lemma ByteField(s: seq<u8>, widths: seq<nat>, k: nat, at: nat)
    requires Size(widths) <= |s| && k < |widths|
    requires widths[k] == 1 && OffsetOf(widths, k) == at
    ensures at < |s| && DecodeFields(s, widths)[k] == s[at]
  {
    FieldAt(s, widths, k);
    ReadLeByte(s, at);
  }

  /** The single-byte fields: socket at 4, type 5, family 6, manufacturer 7, version
      16, voltage 17, status 24 and upgrade 25. */
  lemma ProcessorByteOffsets(s: seq<u8>)
    requires |s| >= PROCESSOR_SIZE
    ensures var p := DecodeProcessor(s);
      p.socket == s[4] && p.processorType == s[5] && p.family == s[6] &&
      p.manufacturer == s[7] && p.version == s[16] && p.voltage == s[17] &&
      p.status == s[24] && p.processorUpgrade == s[25]
  {
    ProcessorLayout();
    ByteField(s, PROCESSOR_WIDTHS, 3, 4);
    ByteField(s, PROCESSOR_WIDTHS, 4, 5);
    ByteField(s, PROCESSOR_WIDTHS, 5, 6);
    ByteField(s, PROCESSOR_WIDTHS, 6, 7);
    ByteField(s, PROCESSOR_WIDTHS, 8, 16);
    ByteField(s, PROCESSOR_WIDTHS, 9, 17);
    ByteField(s, PROCESSOR_WIDTHS, 13, 24);
    ByteField(s, PROCESSOR_WIDTHS, 14, 25);
  }

  /** The wide fields: the u64 id at 8 and the u16 clock and speeds at 18, 20 and
      22, all little-endian; and the header at 0. */
  lemma ProcessorWordOffsets(s: seq<u8>)
    requires |s| >= PROCESSOR_SIZE
    ensures var p := DecodeProcessor(s);
      p.header == HeaderAt(s, 0) && p.id == ReadU64(s, 8) && p.extClock == ReadU16(s, 18) &&
      p.maxSpeed == ReadU16(s, 20) && p.currentSpeed == ReadU16(s, 22)
  {
    ProcessorLayout();
    HeaderOfStructure(s, PROCESSOR_WIDTHS);
    FieldAt(s, PROCESSOR_WIDTHS, 7);
    FieldAt(s, PROCESSOR_WIDTHS, 10);
    FieldAt(s, PROCESSOR_WIDTHS, 11);
    FieldAt(s, PROCESSOR_WIDTHS, 12);
  }

  /** Decoding an encoded Processor Information structure gives it back, whatever
      follows its fixed part. */
  lemma ProcessorRoundTrip(p: ProcessorInformation, rest: seq<u8>)
    ensures DecodeProcessor(EncodeProcessor(p) + rest) == p
  {
    ProcessorLayout();
    DecodeEncodeFields(ProcessorValues(p), PROCESSOR_WIDTHS, rest);
  }

  /** Encoding a decoded Processor Information structure reproduces its 26 bytes. */
  lemma ProcessorBytesRoundTrip(s: seq<u8>)
    requires |s| >= PROCESSOR_SIZE
    ensures EncodeProcessor(DecodeProcessor(s)) == s[..PROCESSOR_SIZE]
  {
    ProcessorLayout();
    var f := DecodeFields(s, PROCESSOR_WIDTHS);
    EncodeDecodeFields(s, PROCESSOR_WIDTHS);
    Fields15(f);
  }

  // ---------------------------------------------------------------------------
  // Baseboard Information, type 2 (SmbiosBoardInfo, src/main.rs:169-186)

  /** The header and eleven single bytes; the trailing host pointer `p_obj_handle`
      is not table data and is not part of the model. */
  const BOARD_WIDTHS: seq<nat> := [1, 1, 2, 1, 1, 1, 1, 1, 1, 1, 1, 1, 1, 1]
  const BOARD_SIZE := 15

  /** The source splits the chassis handle word in two: `chassis_handle` is its low
      byte and `packing` its high byte (src/main.rs:182). */
  datatype BaseboardInformation = BaseboardInformation(
    header: Header,
    manufacturer: u8,
    product: u8,
    version: u8,
    serialNumber: u8,
    assetTag: u8,
    featureFlags: u8,
    locationInChassis: u8,
    chassisHandle: u8,
    packing: u8,
    boardType: u8,
    numObjHandle: u8)

  /** Fields at 0, 1, 2 and then one byte each from 4 to 14, 15 bytes in all. */
  lemma BoardLayout()
    ensures Size(BOARD_WIDTHS) == BOARD_SIZE
    ensures OffsetOf(BOARD_WIDTHS, 3) == 4 && OffsetOf(BOARD_WIDTHS, 4) == 5
    ensures OffsetOf(BOARD_WIDTHS, 5) == 6 && OffsetOf(BOARD_WIDTHS, 6) == 7
    ensures OffsetOf(BOARD_WIDTHS, 7) == 8 && OffsetOf(BOARD_WIDTHS, 8) == 9
    ensures OffsetOf(BOARD_WIDTHS, 9) == 10 && OffsetOf(BOARD_WIDTHS, 10) == 11
    ensures OffsetOf(BOARD_WIDTHS, 11) == 12 && OffsetOf(BOARD_WIDTHS, 12) == 13
    ensures OffsetOf(BOARD_WIDTHS, 13) == 14
    ensures NaturallyAligned(BOARD_WIDTHS)
  {
    BoardOffset(3); BoardOffset(4); BoardOffset(5); BoardOffset(6); BoardOffset(7);
    BoardOffset(8); BoardOffset(9); BoardOffset(10); BoardOffset(11); BoardOffset(12);
    BoardOffset(13); BoardOffset(14);
    BoardAligned(14);
  }

  lemma {:induction false} BoardOffset(k: nat)
    requires 3 <= k <= |BOARD_WIDTHS|
    ensures OffsetOf(BOARD_WIDTHS, k) == k + 1
  {
    if k > 3 {
      BoardOffset(k - 1);
      assert BOARD_WIDTHS[k - 1] == 1;
    } else {
      assert OffsetOf(BOARD_WIDTHS, 1) == 1;
      assert OffsetOf(BOARD_WIDTHS, 2) == 2;
    }
  }

  lemma {:induction false} BoardAligned(k: nat)
    requires 3 <= k <= |BOARD_WIDTHS|
    ensures AlignedUpTo(BOARD_WIDTHS, k)
  {
    if k > 3 {
      BoardAligned(k - 1);
      assert BOARD_WIDTHS[k - 1] == 1;
    } else {
      assert OffsetOf(BOARD_WIDTHS, 1) == 1;
      assert OffsetOf(BOARD_WIDTHS, 2) == 2;
      assert AlignedUpTo(BOARD_WIDTHS, 1);
      assert AlignedUpTo(BOARD_WIDTHS, 2);
    }
  }

  /** The fixed part of a Baseboard Information structure stored at the start of s. */
  function DecodeBoard(s: seq<u8>): BaseboardInformation
    requires |s| >= BOARD_SIZE
  {
    BoardLayout();
    Pow256Widths();
    var f := DecodeFields(s, BOARD_WIDTHS);
    BaseboardInformation(Header(f[0], f[1], f[2]), f[3], f[4], f[5], f[6], f[7], f[8], f[9],
                         f[10], f[11], f[12], f[13])
  }

  function BoardValues(b: BaseboardInformation): (f: seq<nat>)
    ensures Fits(f, BOARD_WIDTHS)
  {
    Pow256Widths();
    [b.header.kind, b.header.length, b.header.handle, b.manufacturer, b.product, b.version,
     b.serialNumber, b.assetTag, b.featureFlags, b.locationInChassis, b.chassisHandle,
     b.packing, b.boardType, b.numObjHandle]
  }

  function EncodeBoard(b: BaseboardInformation): (s: seq<u8>)
    ensures |s| == BOARD_SIZE
  {
    BoardLayout();
    EncodeFields(BoardValues(b), BOARD_WIDTHS)
  }

  /** The header at 0, then one byte each: manufacturer 4, product 5, version 6,
      serial number 7, asset tag 8, feature flags 9 and location 10. */
  lemma BoardOffsets(s: seq<u8>)
    requires |s| >= BOARD_SIZE
    ensures var b := DecodeBoard(s);
      b.header == HeaderAt(s, 0) &&
      b.manufacturer == s[4] && b.product == s[5] && b.version == s[6] &&
      b.serialNumber == s[7] && b.assetTag == s[8] && b.featureFlags == s[9] &&
      b.locationInChassis == s[10]
  {
    BoardLayout();
    HeaderOfStructure(s, BOARD_WIDTHS);
    ByteField(s, BOARD_WIDTHS, 3, 4);
    ByteField(s, BOARD_WIDTHS, 4, 5);
    ByteField(s, BOARD_WIDTHS, 5, 6);
    ByteField(s, BOARD_WIDTHS, 6, 7);
    ByteField(s, BOARD_WIDTHS, 7, 8);
    ByteField(s, BOARD_WIDTHS, 8, 9);
    ByteField(s, BOARD_WIDTHS, 9, 10);
  }

  /** The two halves of the chassis handle at 11 and 12, the board type at 13 and
      the object-handle count at 14. */
  lemma BoardChassisOffsets(s: seq<u8>)
    requires |s| >= BOARD_SIZE
    ensures var b := DecodeBoard(s);
      b.chassisHandle == s[11] && b.packing == s[12] && b.boardType == s[13] &&
      b.numObjHandle == s[14]
  {
    BoardLayout();
    ByteField(s, BOARD_WIDTHS, 10, 11);
    ByteField(s, BOARD_WIDTHS, 11, 12);
    ByteField(s, BOARD_WIDTHS, 12, 13);
    ByteField(s, BOARD_WIDTHS, 13, 14);
  }

  /** Decoding an encoded Baseboard Information structure gives it back. */
  lemma BoardRoundTrip(b: BaseboardInformation, rest: seq<u8>)
    ensures DecodeBoard(EncodeBoard(b) + rest) == b
  {
    BoardLayout();
    DecodeEncodeFields(BoardValues(b), BOARD_WIDTHS, rest);
  }

  lemma Fields14(f: seq<nat>)
    requires |f| == 14
    ensures f == [f[0], f[1], f[2], f[3], f[4], f[5], f[6], f[7], f[8], f[9], f[10], f[11], f[12], f[13]]
  {
  }

  /** Encoding a decoded Baseboard Information structure reproduces its 15 bytes. */
  lemma BoardBytesRoundTrip(s: seq<u8>)
    requires |s| >= BOARD_SIZE
    ensures EncodeBoard(DecodeBoard(s)) == s[..BOARD_SIZE]
  {
    BoardLayout();
    var f := DecodeFields(s, BOARD_WIDTHS);
    EncodeDecodeFields(s, BOARD_WIDTHS);
    Fields14(f);
  }

  // ---------------------------------------------------------------------------
  // BIOS Information, type 0 (SmbiosBiosInfo, src/main.rs:77-95)

  /** The BIOS Information structure is laid out in three runs: the header, vendor,
      version, the u16 starting segment, release date and ROM size (bytes 0 to 9);
      the eight bytes of the packed characteristics (bytes 10 to 17); and two
      extension bytes, four release bytes and the u16 extended ROM size (bytes 18
      to 25). Offset 18 is even, so the second run keeps its alignment. The
      characteristics take their declared packed width of eight bytes; the Rust
      struct of bools behind them is 30 bytes in memory, which would put the back
      run at bytes 40 to 47. */
  const BIOS_FRONT_WIDTHS: seq<nat> := [1, 1, 2, 1, 1, 2, 1, 1]
  const CHARACTERISTICS_OFFSET := 10
  const BIOS_BACK_OFFSET := 18
  const BIOS_BACK_WIDTHS: seq<nat> := [1, 1, 1, 1, 1, 1, 2]
  const BIOS_SIZE := 26

  datatype BiosInformation = BiosInformation(
    header: Header,
    vendor: u8,
    version: u8,
    startingAddressSegment: u16,
    releaseDate: u8,
    romSize: u8,
    characteristics: BiosCharacteristics,
    extension: u8,
    extension2: u8,
    systemMajorRelease: u8,
    systemMinorRelease: u8,
    embeddedMajorRelease: u8,
    embeddedMinorRelease: u8,
    extendedRomSize: u16)

  /** The first run ends where the characteristics start, and they end where the
      second run starts; both runs are naturally aligned. */
  lemma BiosLayout()
    ensures Size(BIOS_FRONT_WIDTHS) == CHARACTERISTICS_OFFSET
    ensures CHARACTERISTICS_OFFSET + CHARACTERISTICS_BYTES == BIOS_BACK_OFFSET
    ensures BIOS_BACK_OFFSET + Size(BIOS_BACK_WIDTHS) == BIOS_SIZE
    ensures OffsetOf(BIOS_FRONT_WIDTHS, 3) == 4 && OffsetOf(BIOS_FRONT_WIDTHS, 4) == 5
    ensures OffsetOf(BIOS_FRONT_WIDTHS, 5) == 6 && OffsetOf(BIOS_FRONT_WIDTHS, 6) == 8
    ensures OffsetOf(BIOS_FRONT_WIDTHS, 7) == 9
    ensures forall k :: 0 <= k < 6 ==> OffsetOf(BIOS_BACK_WIDTHS, k) == k
    ensures OffsetOf(BIOS_BACK_WIDTHS, 6) == 6
    ensures NaturallyAligned(BIOS_FRONT_WIDTHS) && NaturallyAligned(BIOS_BACK_WIDTHS)
    ensures BIOS_BACK_OFFSET % 2 == 0
  {
    assert OffsetOf(BIOS_FRONT_WIDTHS, 1) == 1;
    assert OffsetOf(BIOS_FRONT_WIDTHS, 2) == 2;
    assert OffsetOf(BIOS_FRONT_WIDTHS, 3) == 4;
    assert OffsetOf(BIOS_FRONT_WIDTHS, 4) == 5;
    assert OffsetOf(BIOS_FRONT_WIDTHS, 5) == 6;
    assert OffsetOf(BIOS_FRONT_WIDTHS, 6) == 8;
    assert OffsetOf(BIOS_FRONT_WIDTHS, 7) == 9;
    assert AlignedUpTo(BIOS_FRONT_WIDTHS, 1);
    assert AlignedUpTo(BIOS_FRONT_WIDTHS, 2);
    assert AlignedUpTo(BIOS_FRONT_WIDTHS, 3);
    assert AlignedUpTo(BIOS_FRONT_WIDTHS, 4);
    assert AlignedUpTo(BIOS_FRONT_WIDTHS, 5);
    assert AlignedUpTo(BIOS_FRONT_WIDTHS, 6);
    assert AlignedUpTo(BIOS_FRONT_WIDTHS, 7);
    assert OffsetOf(BIOS_BACK_WIDTHS, 1) == 1;
    assert OffsetOf(BIOS_BACK_WIDTHS, 2) == 2;
    assert OffsetOf(BIOS_BACK_WIDTHS, 3) == 3;
    assert OffsetOf(BIOS_BACK_WIDTHS, 4) == 4;
    assert OffsetOf(BIOS_BACK_WIDTHS, 5) == 5;
    assert OffsetOf(BIOS_BACK_WIDTHS, 6) == 6;
    assert AlignedUpTo(BIOS_BACK_WIDTHS, 1);
    assert AlignedUpTo(BIOS_BACK_WIDTHS, 2);
    assert AlignedUpTo(BIOS_BACK_WIDTHS, 3);
    assert AlignedUpTo(BIOS_BACK_WIDTHS, 4);
    assert AlignedUpTo(BIOS_BACK_WIDTHS, 5);
    assert AlignedUpTo(BIOS_BACK_WIDTHS, 6);
  }

  /** The fixed part of a BIOS Information structure stored at the start of s; the
      characteristics are unpacked from bytes 10 to 17. */
  function DecodeBios(s: seq<u8>): BiosInformation
    requires |s| >= BIOS_SIZE
  {
    BiosLayout();
    Pow256Widths();
    var f := DecodeFields(s, BIOS_FRONT_WIDTHS);
    var g := DecodeFields(s[BIOS_BACK_OFFSET..], BIOS_BACK_WIDTHS);
    BiosInformation(Header(f[0], f[1], f[2]), f[3], f[4], f[5], f[6], f[7],
                    Unpack(OctetsOf(s[CHARACTERISTICS_OFFSET..BIOS_BACK_OFFSET])),
                    g[0], g[1], g[2], g[3], g[4], g[5], g[6])
  }

  function BiosFrontValues(b: BiosInformation): (f: seq<nat>)
    ensures Fits(f, BIOS_FRONT_WIDTHS)
  {
    Pow256Widths();
    [b.header.kind, b.header.length, b.header.handle, b.vendor, b.version,
     b.startingAddressSegment, b.releaseDate, b.romSize]
  }

  function BiosBackValues(b: BiosInformation): (g: seq<nat>)
    ensures Fits(g, BIOS_BACK_WIDTHS)
  {
    Pow256Widths();
    [b.extension, b.extension2, b.systemMajorRelease, b.systemMinorRelease,
     b.embeddedMajorRelease, b.embeddedMinorRelease, b.extendedRomSize]
  }

  /** The BIOS Information structure with its characteristics packed. */
  function EncodeBios(b: BiosInformation): (s: seq<u8>)
    ensures |s| == BIOS_SIZE
  {
    BiosLayout();
    EncodeFields(BiosFrontValues(b), BIOS_FRONT_WIDTHS)
      + BytesOf(Pack(b.characteristics))
      + EncodeFields(BiosBackValues(b), BIOS_BACK_WIDTHS)
  }

  /** The header at 0, vendor at 4, version at 5, the little-endian starting segment
      at 6, release date at 8, ROM size at 9, and the characteristics unpacked from
      bytes 10 to 17. */
  lemma BiosOffsets(s: seq<u8>)
    requires |s| >= BIOS_SIZE
    ensures var b := DecodeBios(s);
      b.header == HeaderAt(s, 0) && b.vendor == s[4] && b.version == s[5] &&
      b.startingAddressSegment == ReadU16(s, 6) && b.releaseDate == s[8] && b.romSize == s[9] &&
      b.characteristics == Unpack(OctetsOf(s[10..18]))
  {
    BiosLayout();
    HeaderOfStructure(s, BIOS_FRONT_WIDTHS);
    ByteField(s, BIOS_FRONT_WIDTHS, 3, 4);
    ByteField(s, BIOS_FRONT_WIDTHS, 4, 5);
    FieldAt(s, BIOS_FRONT_WIDTHS, 5);
    ByteField(s, BIOS_FRONT_WIDTHS, 6, 8);
    ByteField(s, BIOS_FRONT_WIDTHS, 7, 9);
  }

  /** A byte field of the run that starts at `base`. */
  lemma ByteFieldAfter(s: seq<u8>, base: nat, widths: seq<nat>, k: nat, at: nat)
    requires base + Size(widths) <= |s| && k < |widths|
    requires widths[k] == 1 && OffsetOf(widths, k) == at
    ensures base + at < |s| && DecodeFields(s[base..], widths)[k] == s[base + at]
  {
    ByteField(s[base..], widths, k, at);
  }

  /** Extension bytes at 18 and 19, the four release bytes at 20 to 23 and the
      little-endian extended ROM size at 24. */
  lemma BiosTailOffsets(s: seq<u8>)
    requires |s| >= BIOS_SIZE
    ensures var b := DecodeBios(s);
      b.extension == s[18] && b.extension2 == s[19] &&
      b.systemMajorRelease == s[20] && b.systemMinorRelease == s[21] &&
      b.embeddedMajorRelease == s[22] && b.embeddedMinorRelease == s[23] &&
      b.extendedRomSize == ReadU16(s, 24)
  {
    BiosLayout();
    var tail := s[BIOS_BACK_OFFSET..];
    ByteFieldAfter(s, BIOS_BACK_OFFSET, BIOS_BACK_WIDTHS, 0, 0);
    ByteFieldAfter(s, BIOS_BACK_OFFSET, BIOS_BACK_WIDTHS, 1, 1);
    ByteFieldAfter(s, BIOS_BACK_OFFSET, BIOS_BACK_WIDTHS, 2, 2);
    ByteFieldAfter(s, BIOS_BACK_OFFSET, BIOS_BACK_WIDTHS, 3, 3);
    ByteFieldAfter(s, BIOS_BACK_OFFSET, BIOS_BACK_WIDTHS, 4, 4);
    ByteFieldAfter(s, BIOS_BACK_OFFSET, BIOS_BACK_WIDTHS, 5, 5);
    FieldAt(tail, BIOS_BACK_WIDTHS, 6);
    ReadLeSuffix(s, BIOS_BACK_OFFSET, 6, 2);
  }

  /** The three runs of a 26-byte string. */
  lemma Runs(e: seq<u8>, front: seq<u8>, mid: seq<u8>, back: seq<u8>, rest: seq<u8>)
    requires |front| == CHARACTERISTICS_OFFSET && |mid| == CHARACTERISTICS_BYTES
    requires e == front + mid + back + rest
    ensures e == front + (mid + back + rest)
    ensures e[CHARACTERISTICS_OFFSET..BIOS_BACK_OFFSET] == mid
    ensures e[BIOS_BACK_OFFSET..] == back + rest
  {
  }

  lemma Fields8(f: seq<nat>)
    requires |f| == 8
    ensures f == [f[0], f[1], f[2], f[3], f[4], f[5], f[6], f[7]]
  {
  }

  lemma Fields7(g: seq<nat>)
    requires |g| == 7
    ensures g == [g[0], g[1], g[2], g[3], g[4], g[5], g[6]]
  {
  }

  /** Decoding an encoded BIOS Information structure gives it back, whatever
      follows its fixed part: the characteristics survive packing and unpacking. */
  lemma BiosRoundTrip(b: BiosInformation, rest: seq<u8>)
    ensures DecodeBios(EncodeBios(b) + rest) == b
  {
    BiosLayout();
    var front := EncodeFields(BiosFrontValues(b), BIOS_FRONT_WIDTHS);
    var mid := BytesOf(Pack(b.characteristics));
    var back := EncodeFields(BiosBackValues(b), BIOS_BACK_WIDTHS);
    var e := EncodeBios(b) + rest;
    Runs(e, front, mid, back, rest);
    DecodeEncodeFields(BiosFrontValues(b), BIOS_FRONT_WIDTHS, mid + back + rest);
    DecodeEncodeFields(BiosBackValues(b), BIOS_BACK_WIDTHS, rest);
    OctetsOfBytesOf(Pack(b.characteristics));
    UnpackPack(b.characteristics);
  }

  /** Re-encoding writes the first run back as it was. */
  lemma BiosFrontRun(s: seq<u8>)
    requires |s| >= BIOS_SIZE
    ensures EncodeFields(BiosFrontValues(DecodeBios(s)), BIOS_FRONT_WIDTHS) == s[..CHARACTERISTICS_OFFSET]
  {
    BiosLayout();
    EncodeDecodeFields(s, BIOS_FRONT_WIDTHS);
    Fields8(DecodeFields(s, BIOS_FRONT_WIDTHS));
  }

  /** Re-encoding writes the last run back as it was. */
  lemma BiosBackRun(s: seq<u8>)
    requires |s| >= BIOS_SIZE
    ensures EncodeFields(BiosBackValues(DecodeBios(s)), BIOS_BACK_WIDTHS) == s[BIOS_BACK_OFFSET..BIOS_SIZE]
  {
    BiosLayout();
    var tail := s[BIOS_BACK_OFFSET..];
    EncodeDecodeFields(tail, BIOS_BACK_WIDTHS);
    Fields7(DecodeFields(tail, BIOS_BACK_WIDTHS));
    assert tail[..Size(BIOS_BACK_WIDTHS)] == s[BIOS_BACK_OFFSET..BIOS_SIZE];
  }

  /** Re-encoding keeps the outer runs and repacks the characteristics. */
  lemma BiosReencoding(s: seq<u8>)
    requires |s| >= BIOS_SIZE
    ensures EncodeBios(DecodeBios(s))
         == s[..CHARACTERISTICS_OFFSET]
          + BytesOf(Pack(Unpack(OctetsOf(s[CHARACTERISTICS_OFFSET..BIOS_BACK_OFFSET]))))
          + s[BIOS_BACK_OFFSET..BIOS_SIZE]
  {
    BiosFrontRun(s);
    BiosBackRun(s);
  }

  lemma SplitRuns(s: seq<u8>)
    requires |s| >= BIOS_SIZE
    ensures s[..BIOS_SIZE]
         == s[..CHARACTERISTICS_OFFSET] + s[CHARACTERISTICS_OFFSET..BIOS_BACK_OFFSET] + s[BIOS_BACK_OFFSET..BIOS_SIZE]
  {
  }

  /** Two strings split the same way at the same places are equal exactly when
      their middle parts are. */
  lemma MiddleDecides(a: seq<u8>, m1: seq<u8>, m2: seq<u8>, c: seq<u8>)
    requires |m1| == |m2|
    ensures a + m1 + c == a + m2 + c <==> m1 == m2
  {
    if a + m1 + c == a + m2 + c {
      assert m1 == (a + m1 + c)[|a|..|a| + |m1|];
      assert m2 == (a + m2 + c)[|a|..|a| + |m2|];
    }
  }

  /** The packed bits come back as the same bytes exactly when the bytes' reserved
      bits were clear. */
  lemma RepackBytes(raw: seq<u8>)
    requires |raw| == CHARACTERISTICS_BYTES
    ensures BytesOf(Pack(Unpack(OctetsOf(raw)))) == raw <==> ReservedClear(OctetsOf(raw))
  {
    var os := OctetsOf(raw);
    PackUnpack(os);
    if BytesOf(Pack(Unpack(os))) == raw {
      OctetsOfBytesOf(Pack(Unpack(os)));
    }
    if ReservedClear(os) {
      BytesOfOctetsOf(raw);
    }
  }

  /** Re-encoding a decoded BIOS Information structure reproduces its 26 bytes
      exactly when the reserved bits of its characteristics were clear: unpacking
      drops them and packing writes them as zero. */
  lemma BiosBytesRoundTrip(s: seq<u8>)
    requires |s| >= BIOS_SIZE
    ensures EncodeBios(DecodeBios(s)) == s[..BIOS_SIZE]
        <==> ReservedClear(OctetsOf(s[CHARACTERISTICS_OFFSET..BIOS_BACK_OFFSET]))
  {
    var raw := s[CHARACTERISTICS_OFFSET..BIOS_BACK_OFFSET];
    BiosReencoding(s);
    SplitRuns(s);
    MiddleDecides(s[..CHARACTERISTICS_OFFSET], BytesOf(Pack(Unpack(OctetsOf(raw)))), raw,
                  s[BIOS_BACK_OFFSET..BIOS_SIZE]);
    RepackBytes(raw);
  }

  // ---------------------------------------------------------------------------
  // Dispatch on the type (the match at src/main.rs:229-258)

  /** What the walker makes of the structure at a cursor: one of the three
      structures it shows field by field, a structure of any other type, or one of
      those three types whose declared length is shorter than its fixed part. */
  datatype Record =
    | ProcessorRecord(processor: ProcessorInformation)
    | BoardRecord(board: BaseboardInformation)
    | BiosRecord(bios: BiosInformation)
    | Unrecognized(header: Header)
    | Malformed(header: Header, required: nat)

  /** The three tags with a typed decoder: 4, 2 and 0. */
  predicate HasDecoder(kind: u8) {
    kind == 4 || kind == 2 || kind == 0
  }

  /** Exactly the Processor, Baseboard and BIOS tags have a typed decoder. */
  lemma DecodedTags(kind: u8)
    ensures (ParseType(kind) == Some(ProcessorInfo) || ParseType(kind) == Some(BoardInfo) ||
             ParseType(kind) == Some(Bios)) <==> HasDecoder(kind)
  {
  }

  /** The fixed size that goes with a decoded tag. */
  function FixedSizeOf(kind: u8): nat
    requires HasDecoder(kind)
  {
    if kind == 4 then PROCESSOR_SIZE else if kind == 2 then BOARD_SIZE else BIOS_SIZE
  }

  function RecordHeader(r: Record): Header {
    match r
    case ProcessorRecord(p) => p.header
    case BoardRecord(b) => b.header
    case BiosRecord(b) => b.header
    case Unrecognized(h) => h
    case Malformed(h, _) => h
  }

  predicate IsTyped(r: Record) {
    r.ProcessorRecord? || r.BoardRecord? || r.BiosRecord?
  }

  /** The fixed part of a structure with a decoder, stored at the start of s. */
  function DecodeTyped(kind: u8, s: seq<u8>): (r: Record)
    requires HasDecoder(kind) && |s| >= FixedSizeOf(kind)
  {
    if kind == 4 then ProcessorRecord(DecodeProcessor(s))
    else if kind == 2 then BoardRecord(DecodeBoard(s))
    else BiosRecord(DecodeBios(s))
  }

  lemma TypedHeader(kind: u8, s: seq<u8>)
    requires HasDecoder(kind) && |s| >= FixedSizeOf(kind)
    ensures IsTyped(DecodeTyped(kind, s))
    ensures RecordHeader(DecodeTyped(kind, s)) == HeaderAt(s, 0)
  {
    if kind == 4 {
      ProcessorWordOffsets(s);
    } else if kind == 2 {
      BoardOffsets(s);
    } else {
      BiosOffsets(s);
    }
  }

  /** The header read through a slice that starts at `at` is the header at `at`. */
  lemma HeaderOfSlice(buf: seq<u8>, at: nat, n: nat)
    requires HEADER_SIZE <= n && at + n <= |buf|
    ensures HeaderAt(buf[at..at + n], 0) == HeaderAt(buf, at)
  {
    var s := buf[at..at + n];
    HeaderFields(s, 0);
    HeaderFields(buf, at);
    assert s[0] == buf[at] && s[1] == buf[at + 1] && s[2] == buf[at + 2] && s[3] == buf[at + 3];
  }

  /** The structure at offset `at`: a type without a decoder is Unrecognized
      (whatever its tag, in the enum or not); a decoded type whose declared length
      is below its fixed size is Malformed; None when the fixed part would run past
      the buffer. */
  function DecodeRecord(buf: seq<u8>, at: nat): (r: Option<Record>)
    requires at + HEADER_SIZE <= |buf|
    ensures r.Some? ==> RecordHeader(r.value) == HeaderAt(buf, at)
  {
    var h := HeaderAt(buf, at);
    if HasDecoder(h.kind) then
      var size := FixedSizeOf(h.kind);
      if h.length < size then Some(Malformed(h, size))
      else if at + size > |buf| then None
      else
        TypedHeader(h.kind, buf[at..at + size]);
        HeaderOfSlice(buf, at, size);
        Some(DecodeTyped(h.kind, buf[at..at + size]))
    else Some(Unrecognized(h))
  }

  /** Only tags 4, 2 and 0 give a typed record, and then exactly when the declared
      length covers the fixed part and the fixed part lies in the buffer; every
      other tag gives Unrecognized. */
  lemma RecordKinds(buf: seq<u8>, at: nat)
    requires at + HEADER_SIZE <= |buf|
    ensures var r := DecodeRecord(buf, at); var kind, length := buf[at], buf[at + 1];
      (r.None? <==> HasDecoder(kind) && length >= FixedSizeOf(kind) && at + FixedSizeOf(kind) > |buf|) &&
      (r.Some? && IsTyped(r.value) <==>
         HasDecoder(kind) && length >= FixedSizeOf(kind) && at + FixedSizeOf(kind) <= |buf|) &&
      (r.Some? && r.value.Malformed? <==> HasDecoder(kind) && length < FixedSizeOf(kind)) &&
      (r.Some? && r.value.Unrecognized? <==> !HasDecoder(kind))
  {
    var h := HeaderAt(buf, at);
    if HasDecoder(h.kind) && h.length >= FixedSizeOf(h.kind) && at + FixedSizeOf(h.kind) <= |buf| {
      TypedHeader(h.kind, buf[at..at + FixedSizeOf(h.kind)]);
    }
  }

  /** The fixed part the decoder reads lies in the buffer: the type has no decoder,
      its declared length is too short to decode, or the fixed part fits. */
  predicate FixedPartFits(buf: seq<u8>, at: nat)
    requires at + HEADER_SIZE <= |buf|
  {
    !HasDecoder(buf[at]) || buf[at + 1] < FixedSizeOf(buf[at]) || at + FixedSizeOf(buf[at]) <= |buf|
  }

  /** The decoder gives a record exactly where its fixed part fits. */
  lemma FixedPartDecodes(buf: seq<u8>, at: nat)
    requires at + HEADER_SIZE <= |buf|
    ensures DecodeRecord(buf, at).Some? <==> FixedPartFits(buf, at)
  {
    RecordKinds(buf, at);
  }

  /** Type 127 with length 4: the end-of-table marker that stops the walk. */
  predicate IsEndOfTable(h: Header) {
    h.kind == Tag(Break) && h.length == 4
  }
}

=== FILE: walk_facts.dfy ===
/** What the walk over the structure table guarantees: where the cursor goes
    after a structure and its strings, where the walk can stop, and what it
    reports for each structure it goes through. */
module WalkFacts {
  import opened Bytes
  import opened Structures
  import opened Walker

  // ---------------------------------------------------------------------------
  // The string section after a structure

  /** A string of the string section: at least one byte and no NUL. */
  predicate IsStructureString(s: seq<u8>) {
    |s| > 0 && forall j :: 0 <= j < |s| ==> s[j] != 0
  }

  predicate WellFormedStrings(strs: seq<seq<u8>>) {
    forall k :: 0 <= k < |strs| ==> IsStructureString(strs[k])
  }

  /** The strings, each followed by its NUL. */
  function StringSet(strs: seq<seq<u8>>): seq<u8> {
    if strs == [] then [] else strs[0] + [0] + StringSet(strs[1..])
  }

  /** The string section of a structure: the strings and one more NUL, or two NULs
      when the structure has no strings. */
  function StringSection(strs: seq<seq<u8>>): seq<u8> {
    if strs == [] then [0, 0] else StringSet(strs) + [0]
  }

  /** The strings' lengths, each plus one for its NUL, added up. */
  function StringsSize(strs: seq<seq<u8>>): nat {
    if strs == [] then 0 else |strs[0]| + 1 + StringsSize(strs[1..])
  }

  /** No two NUL bytes in a row anywhere in x. */
  predicate NoNulPair(x: seq<u8>) {
    forall j :: 0 <= j < |x| - 1 ==> !(x[j] == 0 && x[j + 1] == 0)
  }

  /** The strings with their NULs: as long as StringsSize says, starting with a
      non-NUL byte, ending with a NUL, and with no pair of NULs inside. */
  lemma {:induction false} StringSetShape(strs: seq<seq<u8>>)
    requires |strs| > 0 && WellFormedStrings(strs)
    ensures |StringSet(strs)| == StringsSize(strs)
    ensures StringSet(strs)[0] != 0 && StringSet(strs)[|StringSet(strs)| - 1] == 0
    ensures NoNulPair(StringSet(strs))
  {
    var s, rest := strs[0], strs[1..];
    assert IsStructureString(strs[0]);
    var y := StringSet(rest);
    var x := StringSet(strs);
    assert x == s + [0] + y;
    if rest == [] {
      assert x == s + [0];
    } else {
      assert WellFormedStrings(rest) by {
        forall k | 0 <= k < |rest|
          ensures IsStructureString(rest[k])
        {
          assert rest[k] == strs[k + 1];
        }
      }
      StringSetShape(rest);
      forall j | 0 <= j < |x| - 1
        ensures !(x[j] == 0 && x[j + 1] == 0)
      {
        if j < |s| {
          assert x[j] == s[j];
        } else if j == |s| {
          assert x[j + 1] == y[0];
        } else {
          assert x[j] == y[j - |s| - 1] && x[j + 1] == y[j - |s|];
        }
      }
    }
  }

  /** The scan stops at the first pair of NULs: any pair with none before it is the
      one it finds. */
  lemma FirstDoubleNul(buf: seq<u8>, from: nat, i: nat)
    requires from <= i && DoubleNul(buf, i)
    requires forall j :: from <= j < i ==> !DoubleNul(buf, j)
    ensures StringsEnd(buf, from) == Some(i)
  {
    StringsEndFirst(buf, from);
  }

  /** The length of a string section: two bytes without strings, otherwise each
      string plus its NUL, plus the final NUL. */
  lemma SectionSize(strs: seq<seq<u8>>)
    requires WellFormedStrings(strs)
    ensures |StringSection(strs)| == if strs == [] then 2 else StringsSize(strs) + 1
  {
    if strs != [] {
      StringSetShape(strs);
    }
  }

  /** The bytes of a slice are the bytes of the buffer. */
  lemma SliceBytes(buf: seq<u8>, from: nat, x: seq<u8>)
    requires from + |x| <= |buf| && buf[from..from + |x|] == x
    ensures forall j :: 0 <= j < |x| ==> buf[from + j] == x[j]
  {
    forall j | 0 <= j < |x|
      ensures buf[from + j] == x[j]
    {
      assert buf[from..from + |x|][j] == buf[from + j];
    }
  }

  /** The scan over a section of one or more strings stops on the NUL of the last
      string, which the final NUL follows. */
  lemma StringsScan(buf: seq<u8>, from: nat, strs: seq<seq<u8>>)
    requires |strs| > 0 && WellFormedStrings(strs)
    requires from + |StringSection(strs)| <= |buf| && buf[from..from + |StringSection(strs)|] == StringSection(strs)
    ensures StringsEnd(buf, from) == Some(from + StringsSize(strs) - 1)
  {
    var x := StringSet(strs);
    StringSetShape(strs);
    SliceBytes(buf, from, x + [0]);
    forall j | from <= j < from + |x| - 1
      ensures !DoubleNul(buf, j)
    {
      assert buf[j] == x[j - from] && buf[j + 1] == x[j + 1 - from];
    }
    assert buf[from + |x| - 1] == x[|x| - 1];
    assert buf[from + |x|] == (x + [0])[|x|];
    FirstDoubleNul(buf, from, from + |x| - 1);
  }

  /** When the bytes after the fixed part of the structure at `at` (at + length)
      are a well-formed string section, the cursor moves to just past that
      section: by length + 2 without strings, and by length + the strings' lengths
      plus one each + 1 with strings. */
  lemma SectionAdvance(buf: seq<u8>, at: nat, strs: seq<seq<u8>>)
    requires at + HEADER_SIZE <= |buf| && WellFormedStrings(strs)
    requires var from := at + buf[at + 1];
      from + |StringSection(strs)| <= |buf| && buf[from..from + |StringSection(strs)|] == StringSection(strs)
    ensures NextCursor(buf, at) == Some(at + buf[at + 1] + |StringSection(strs)|)
    ensures strs == [] ==> NextCursor(buf, at) == Some(at + buf[at + 1] + 2)
    ensures strs != [] ==> NextCursor(buf, at) == Some(at + buf[at + 1] + StringsSize(strs) + 1)
  {
    SectionSize(strs);
    HeaderFields(buf, at);
    var from := at + buf[at + 1];
    if strs == [] {
      SliceBytes(buf, from, [0, 0]);
      FirstDoubleNul(buf, from, from);
      NextCursorOf(buf, at, from);
    } else {
      StringsScan(buf, from, strs);
      NextCursorOf(buf, at, from + StringsSize(strs) - 1);
    }
  }

  lemma SectionEndsAt(buf: seq<u8>, at: nat, strs: seq<seq<u8>>, mark: nat)
    requires at + HEADER_SIZE <= |buf| && WellFormedStrings(strs)
    requires mark == at + buf[at + 1] + |StringSection(strs)| && mark <= |buf|
    requires buf[at + buf[at + 1]..mark] == StringSection(strs)
    ensures NextCursor(buf, at) == Some(mark)
  {
    SectionAdvance(buf, at, strs);
  }

  /** A byte before the scan's starting point does not change what it finds. */
  lemma {:induction false} StringsEndIgnores(buf: seq<u8>, from: nat, p: nat, b: u8)
    requires p < from && p < |buf|
    ensures StringsEnd(buf[p := b], from) == StringsEnd(buf, from)
    decreases |buf| - from
  {
    if from + 1 < |buf| {
      StringsEndIgnores(buf, from + 1, p, b);
    }
  }

  /** How far the cursor moves does not depend on the type byte, as long as the
      declared length is not zero (with length zero the scan starts on the type
      byte itself). */
  lemma TagIrrelevant(buf: seq<u8>, at: nat, kind: u8)
    requires at + HEADER_SIZE <= |buf| && buf[at + 1] > 0
    ensures NextCursor(buf[at := kind], at) == NextCursor(buf, at)
  {
    StringsEndIgnores(buf, at + buf[at + 1], at, kind);
  }

  // ---------------------------------------------------------------------------
  // The walk

  /** The structure at `at` is not the end-of-table marker, its fixed part and
      strings lie in the buffer, and the next cursor is inside the table. */
  predicate Continues(buf: seq<u8>, end: nat, at: nat) {
    at + HEADER_SIZE <= end && at + HEADER_SIZE <= |buf| && !IsEndOfTable(HeaderAt(buf, at)) &&
    FixedPartFits(buf, at) && NextCursor(buf, at).Some? && NextCursor(buf, at).value < end
  }

  /** Where the walk goes on: the structure, then the walk from the next cursor. */
  lemma WalkContinues(buf: seq<u8>, end: nat, at: nat)
    requires Continues(buf, end, at)
    ensures NextCursor(buf, at).value > at
    ensures WalkFrom(buf, end, at) ==
      Then(Visit(at, HeaderAt(buf, at)), WalkFrom(buf, end, NextCursor(buf, at).value))
  {
  }

  /** The step from `at` to the next cursor `next`, inside the table. */
  lemma StepTo(buf: seq<u8>, end: nat, at: nat, next: nat)
    requires at + HEADER_SIZE <= end && at + HEADER_SIZE <= |buf| && !IsEndOfTable(HeaderAt(buf, at))
    requires FixedPartFits(buf, at) && NextCursor(buf, at) == Some(next) && next < end
    ensures at < next && WalkFrom(buf, end, at) == Then(Visit(at, HeaderAt(buf, at)), WalkFrom(buf, end, next))
  {
    assert Continues(buf, end, at);
    WalkContinues(buf, end, at);
  }

  /** The walk stops at an end-of-table marker whose header lies in the table. */
  lemma MarkerStops(buf: seq<u8>, end: nat, at: nat)
    requires at + HEADER_SIZE <= end && at + HEADER_SIZE <= |buf| && IsEndOfTable(HeaderAt(buf, at))
    ensures WalkFrom(buf, end, at) == Trace([], EndOfTable(at))
  {
  }

  /** Where the walk stops, it reports at most the structure at the cursor. */
  lemma WalkHalts(buf: seq<u8>, end: nat, at: nat)
    requires at <= end && !Continues(buf, end, at)
    ensures |WalkFrom(buf, end, at).visits| <= 1
    ensures WalkFrom(buf, end, at).visits != [] ==>
      at + HEADER_SIZE <= end && at + HEADER_SIZE <= |buf| && !IsEndOfTable(HeaderAt(buf, at)) &&
      FixedPartFits(buf, at) && WalkFrom(buf, end, at).visits[0] == Visit(at, HeaderAt(buf, at))
  {
  }

  /** Every structure the walk goes through has its header inside the table, at or
      after the starting cursor. */
  lemma {:induction false} VisitsInTable(buf: seq<u8>, end: nat, at: nat)
    requires at <= end
    ensures var t := WalkFrom(buf, end, at);
      forall i :: 0 <= i < |t.visits| ==> at <= t.visits[i].at && t.visits[i].at + HEADER_SIZE <= end
    decreases end - at
  {
    var t := WalkFrom(buf, end, at);
    if Continues(buf, end, at) {
      var next := NextCursor(buf, at).value;
      var rest := WalkFrom(buf, end, next);
      VisitsInTable(buf, end, next);
      WalkContinues(buf, end, at);
      forall i | 0 <= i < |t.visits|
        ensures at <= t.visits[i].at && t.visits[i].at + HEADER_SIZE <= end
      {
        if i > 0 {
          assert t.visits[i] == rest.visits[i - 1];
        }
      }
    } else {
      WalkHalts(buf, end, at);
    }
  }

  /** The cursor moves strictly forward: the structures come in increasing order
      of offset. */
  lemma {:induction false} VisitsOrdered(buf: seq<u8>, end: nat, at: nat)
    requires at <= end
    ensures var t := WalkFrom(buf, end, at);
      forall i, j :: 0 <= i < j < |t.visits| ==> t.visits[i].at < t.visits[j].at
    decreases end - at
  {
    var t := WalkFrom(buf, end, at);
    if Continues(buf, end, at) {
      var next := NextCursor(buf, at).value;
      var rest := WalkFrom(buf, end, next);
      VisitsOrdered(buf, end, next);
      VisitsInTable(buf, end, next);
      WalkContinues(buf, end, at);
      forall i, j | 0 <= i < j < |t.visits|
        ensures t.visits[i].at < t.visits[j].at
      {
        assert t.visits[j] == rest.visits[j - 1];
        if i > 0 {
          assert t.visits[i] == rest.visits[i - 1];
        }
      }
    } else {
      WalkHalts(buf, end, at);
    }
  }

  /** Each structure the walk goes through carries the header at its offset, is
      not the end-of-table marker, and has a fixed part the decoder can read. */
  lemma {:induction false} VisitsDecode(buf: seq<u8>, end: nat, at: nat)
    requires at <= end
    ensures var t := WalkFrom(buf, end, at);
      forall i :: 0 <= i < |t.visits| ==>
        t.visits[i].at + HEADER_SIZE <= |buf| &&
        t.visits[i].header == HeaderAt(buf, t.visits[i].at) &&
        !IsEndOfTable(t.visits[i].header) && FixedPartFits(buf, t.visits[i].at)
    decreases end - at
  {
    var t := WalkFrom(buf, end, at);
    if Continues(buf, end, at) {
      var next := NextCursor(buf, at).value;
      var rest := WalkFrom(buf, end, next);
      VisitsDecode(buf, end, next);
      WalkContinues(buf, end, at);
      forall i | 0 <= i < |t.visits|
        ensures t.visits[i].at + HEADER_SIZE <= |buf| && t.visits[i].header == HeaderAt(buf, t.visits[i].at)
        ensures !IsEndOfTable(t.visits[i].header) && FixedPartFits(buf, t.visits[i].at)
      {
        if i > 0 {
          assert t.visits[i] == rest.visits[i - 1];
        }
      }
    } else {
      WalkHalts(buf, end, at);
    }
  }

  /** Why a walk stops: at an end-of-table marker whose header lies in the table;
      with a next cursor at or past the end of the table; at a header that does
      not fit; at a fixed part that runs past the buffer; or at a structure whose
      strings are never terminated. */
  lemma {:induction false} WalkStops(buf: seq<u8>, end: nat, at: nat)
    requires at <= end
    ensures var s := WalkFrom(buf, end, at).status;
      (s.EndOfTable? ==> at <= s.at && s.at + HEADER_SIZE <= end && s.at + HEADER_SIZE <= |buf| &&
                         IsEndOfTable(HeaderAt(buf, s.at))) &&
      (s.PastEnd? ==> s.next >= end) &&
      (s.Failed? ==> !s.error.TruncatedContainer? && at <= s.error.at) &&
      (s.Failed? && s.error.HeaderOutOfBounds? ==>
         s.error.at + HEADER_SIZE > end || s.error.at + HEADER_SIZE > |buf|) &&
      (s.Failed? && s.error.FixedPartOutOfBounds? ==>
         s.error.at + HEADER_SIZE <= |buf| && !FixedPartFits(buf, s.error.at)) &&
      (s.Failed? && s.error.UnterminatedStrings? ==>
         s.error.at + HEADER_SIZE <= |buf| && NextCursor(buf, s.error.at).None?)
    decreases end - at
  {
    if Continues(buf, end, at) {
      WalkContinues(buf, end, at);
      WalkStops(buf, end, NextCursor(buf, at).value);
    }
  }

  /** The end-of-table marker stops the walk without a scan: nothing after its
      header matters. */
  lemma EndMarkerStops(buf: seq<u8>, other: seq<u8>, end: nat, at: nat)
    requires at + HEADER_SIZE <= end && at + HEADER_SIZE <= |buf| && at + HEADER_SIZE <= |other|
    requires other[at..at + HEADER_SIZE] == buf[at..at + HEADER_SIZE]
    requires IsEndOfTable(HeaderAt(buf, at))
    ensures WalkFrom(buf, end, at) == Trace([], EndOfTable(at))
    ensures WalkFrom(other, end, at) == Trace([], EndOfTable(at))
  {
    HeaderFields(buf, at);
    HeaderFields(other, at);
    assert other[at] == buf[at] && other[at + 1] == buf[at + 1];
    MarkerStops(buf, end, at);
    MarkerStops(other, end, at);
  }

  /** Type 127 with any length other than 4 is an ordinary structure of an
      unrecognized type: the walk goes through it and on. */
  lemma BreakOtherLength(buf: seq<u8>, end: nat, at: nat)
    requires at + HEADER_SIZE <= end && at + HEADER_SIZE <= |buf|
    requires buf[at] == Tag(Break) && buf[at + 1] != 4
    ensures WalkFrom(buf, end, at).visits != []
    ensures WalkFrom(buf, end, at).visits[0] == Visit(at, HeaderAt(buf, at))
    ensures DecodeRecord(buf, at) == Some(Unrecognized(HeaderAt(buf, at)))
  {
    RecordKinds(buf, at);
    HeaderFields(buf, at);
    if Continues(buf, end, at) {
      WalkContinues(buf, end, at);
    } else {
      WalkHalts(buf, end, at);
    }
  }

  /** An empty table: the walk looks for a header at byte 8 and finds none inside
      the table. */
  lemma EmptyTable(buf: seq<u8>)
    requires |buf| >= TABLE_OFFSET && ReadU32(buf, 4) == 0
    ensures WalkTable(buf) == Trace([], Failed(HeaderOutOfBounds(TABLE_OFFSET)))
  {
    WalkTableStart(buf);
  }

  /** The whole walk: it fails on a truncated prefix, and otherwise every structure
      it reports lies in the table [8, 8 + length), in increasing order. */
  lemma TableVisits(buf: seq<u8>)
    ensures WalkTable(buf).status == Failed(TruncatedContainer) <==> |buf| < TABLE_OFFSET
    ensures |buf| >= TABLE_OFFSET ==> var t := WalkTable(buf);
      forall i :: 0 <= i < |t.visits| ==>
        TABLE_OFFSET <= t.visits[i].at && t.visits[i].at + HEADER_SIZE <= TABLE_OFFSET + ReadU32(buf, 4)
    ensures forall i, j :: 0 <= i < j < |WalkTable(buf).visits| ==>
      WalkTable(buf).visits[i].at < WalkTable(buf).visits[j].at
  {
    if |buf| >= TABLE_OFFSET {
      var end := TABLE_OFFSET + ReadU32(buf, 4);
      WalkTableStart(buf);
      VisitsInTable(buf, end, TABLE_OFFSET);
      VisitsOrdered(buf, end, TABLE_OFFSET);
      WalkStops(buf, end, TABLE_OFFSET);
    }
  }

  /** A structure at `at` that is not the end-of-table marker, whose fixed part the
      decoder can read, followed at cursor + length by the well-formed string
      section `strs`, which ends at `next`. */
  predicate StructureAt(buf: seq<u8>, at: nat, strs: seq<seq<u8>>, next: nat) {
    at + HEADER_SIZE <= |buf| && !IsEndOfTable(HeaderAt(buf, at)) && FixedPartFits(buf, at) &&
    WellFormedStrings(strs) && next == at + buf[at + 1] + |StringSection(strs)| &&
    next <= |buf| && buf[at + buf[at + 1]..next] == StringSection(strs)
  }

  /** A walk whose end leaves room for a header at `next` passes such a structure
      and goes on at `next`. */
  lemma StructureStep(buf: seq<u8>, end: nat, at: nat, strs: seq<seq<u8>>, next: nat)
    requires StructureAt(buf, at, strs, next) && next + HEADER_SIZE <= end
    ensures at < next
    ensures WalkFrom(buf, end, at) == Then(Visit(at, HeaderAt(buf, at)), WalkFrom(buf, end, next))
  {
    SectionEndsAt(buf, at, strs, next);
    StepTo(buf, end, at, next);
  }

  /** The structures at the cursors `ats` lie back to back, each with the string
      section of `secs` at the same index, and the last section ends at `mark`. */
  predicate BackToBack(buf: seq<u8>, ats: seq<nat>, secs: seq<seq<seq<u8>>>, mark: nat)
    decreases |ats|
  {
    |secs| == |ats| &&
    (ats == [] ||
     (StructureAt(buf, ats[0], secs[0], if |ats| > 1 then ats[1] else mark) &&
      BackToBack(buf, ats[1..], secs[1..], mark)))
  }

  /** A visit for each cursor, with the header found there. */
  function VisitsAt(buf: seq<u8>, ats: seq<nat>): (vs: seq<Visit>)
    requires forall k :: 0 <= k < |ats| ==> ats[k] + HEADER_SIZE <= |buf|
    ensures |vs| == |ats|
  {
    if ats == [] then [] else [Visit(ats[0], HeaderAt(buf, ats[0]))] + VisitsAt(buf, ats[1..])
  }

  /** Any number of well-formed structures laid back to back and followed by the
      end-of-table marker: the walk from the first of them visits each one, in
      order, with its header, and stops at the marker. The walk may end anywhere
      at or after the end of the marker's header, for instance after the two NUL
      bytes that close the end-of-table structure. */
  lemma {:induction false} StructuresThenMarker(buf: seq<u8>, end: nat, ats: seq<nat>, secs: seq<seq<seq<u8>>>, mark: nat)
    requires BackToBack(buf, ats, secs, mark)
    requires mark + HEADER_SIZE <= |buf| && IsEndOfTable(HeaderAt(buf, mark))
    requires mark + HEADER_SIZE <= end
    ensures forall k :: 0 <= k < |ats| ==> ats[k] < mark
    ensures var start := if ats == [] then mark else ats[0];
      start <= mark &&
      WalkFrom(buf, end, start) == Trace(VisitsAt(buf, ats), EndOfTable(mark))
    decreases |ats|
  {
    if ats == [] {
      MarkerStops(buf, end, mark);
    } else {
      var at, next := ats[0], if |ats| > 1 then ats[1] else mark;
      StructuresThenMarker(buf, end, ats[1..], secs[1..], mark);
      StructureStep(buf, end, at, secs[0], next);
      forall k | 0 <= k < |ats|
        ensures ats[k] < mark
      {
        if k > 0 {
          assert ats[k] == ats[1..][k - 1];
        }
      }
    }
  }

  /** A whole table of well-formed structures, the first at byte 8, closed by the
      end-of-table marker whose header lies in the table: the walk visits every
      structure in order and stops at the marker, whatever follows the marker's
      header inside the table. */
  lemma WellFormedTable(buf: seq<u8>, ats: seq<nat>, secs: seq<seq<seq<u8>>>, mark: nat)
    requires |buf| >= TABLE_OFFSET && mark + HEADER_SIZE <= TABLE_OFFSET + ReadU32(buf, 4)
    requires (if ats == [] then mark else ats[0]) == TABLE_OFFSET
    requires BackToBack(buf, ats, secs, mark)
    requires mark + HEADER_SIZE <= |buf| && IsEndOfTable(HeaderAt(buf, mark))
    ensures forall k :: 0 <= k < |ats| ==> ats[k] + HEADER_SIZE <= |buf|
    ensures WalkTable(buf) == Trace(VisitsAt(buf, ats), EndOfTable(mark))
  {
    var end := TABLE_OFFSET + ReadU32(buf, 4);
    WalkTableStart(buf);
    StructuresThenMarker(buf, end, ats, secs, mark);
    assert WalkFrom(buf, end, TABLE_OFFSET) == Trace(VisitsAt(buf, ats), EndOfTable(mark));
  }

  // ---------------------------------------------------------------------------
  // A whole table

  /** The header of the processor structure p, encoded at `at`, reads back as
      p's header. */
  lemma ProcessorHeaderAt(buf: seq<u8>, at: nat, p: ProcessorInformation)
    requires at + PROCESSOR_SIZE <= |buf| && buf[at..at + PROCESSOR_SIZE] == EncodeProcessor(p)
    ensures HeaderAt(buf, at) == p.header && buf[at] == p.header.kind && buf[at + 1] == p.header.length
  {
    var e := EncodeProcessor(p);
    ProcessorRoundTrip(p, []);
    assert e + [] == e;
    ProcessorWordOffsets(e);
    HeaderOfSlice(buf, at, PROCESSOR_SIZE);
    HeaderFields(buf, at);
  }

  /** The processor structure p, encoded at `at`, decodes as p. */
  lemma ProcessorAt(buf: seq<u8>, at: nat, p: ProcessorInformation)
    requires p.header.kind == Tag(ProcessorInfo) && p.header.length == PROCESSOR_SIZE
    requires at + PROCESSOR_SIZE <= |buf| && buf[at..at + PROCESSOR_SIZE] == EncodeProcessor(p)
    ensures HeaderAt(buf, at) == p.header && buf[at + 1] == PROCESSOR_SIZE
    ensures DecodeRecord(buf, at) == Some(ProcessorRecord(p))
  {
    assert p.header.kind == 4;
    ProcessorHeaderAt(buf, at, p);
    var s := buf[at..at + PROCESSOR_SIZE];
    ProcessorRoundTrip(p, []);
    assert s == EncodeProcessor(p) + [];
    assert DecodeTyped(4, s) == ProcessorRecord(p);
  }

  /** The header h, encoded at `at`, reads back as h. */
  lemma HeaderEncodedAt(buf: seq<u8>, at: nat, h: Header)
    requires at + HEADER_SIZE <= |buf| && buf[at..at + HEADER_SIZE] == EncodeHeader(h)
    ensures HeaderAt(buf, at) == h
  {
    HeaderRoundTrip(h, []);
    assert EncodeHeader(h) + [] == EncodeHeader(h);
    HeaderOfSlice(buf, at, HEADER_SIZE);
  }

  /** The pieces of a table of one structure followed by the end-of-table marker. */
  lemma TablePieces(buf: seq<u8>, prefix: seq<u8>, fixed: seq<u8>, section: seq<u8>, marker: seq<u8>)
    requires buf == prefix + fixed + section + marker
    ensures buf == prefix + (fixed + section + marker)
    ensures var a := |prefix|; var b := a + |fixed|; var c := b + |section|;
      buf[a..b] == fixed && buf[b..c] == section && buf[c..c + |marker|] == marker
  {
  }

  /** A structure at `at` with a well-formed string section, and the end-of-table
      marker right after it, with its header inside the table: the walk reports
      that one structure and stops at the marker. */
  lemma StructureThenMarker(buf: seq<u8>, end: nat, at: nat, strs: seq<seq<u8>>, mark: nat)
    requires at + HEADER_SIZE <= |buf| && !IsEndOfTable(HeaderAt(buf, at)) && FixedPartFits(buf, at)
    requires WellFormedStrings(strs) && mark == at + buf[at + 1] + |StringSection(strs)|
    requires mark + HEADER_SIZE <= |buf| && IsEndOfTable(HeaderAt(buf, mark))
    requires buf[at + buf[at + 1]..mark] == StringSection(strs)
    requires mark + HEADER_SIZE <= end
    ensures WalkFrom(buf, end, at) == Trace([Visit(at, HeaderAt(buf, at))], EndOfTable(mark))
  {
    var v := Visit(at, HeaderAt(buf, at));
    SectionEndsAt(buf, at, strs, mark);
    MarkerStops(buf, end, mark);
    StepTo(buf, end, at, mark);
    assert [v] + [] == [v];
  }

  /** A processor structure encoded at byte 8, its strings and an end-of-table
      header right after them, inside a walk that ends at or after that header: the
      walk visits the processor, which decodes as p, and stops at the marker. */
  lemma ProcessorThenMarker(buf: seq<u8>, end: nat, p: ProcessorInformation, strs: seq<seq<u8>>, marker: Header, mark: nat)
    requires p.header.kind == Tag(ProcessorInfo) && p.header.length == PROCESSOR_SIZE
    requires WellFormedStrings(strs) && IsEndOfTable(marker)
    requires TABLE_OFFSET + PROCESSOR_SIZE <= |buf| && buf[TABLE_OFFSET..TABLE_OFFSET + PROCESSOR_SIZE] == EncodeProcessor(p)
    requires mark == TABLE_OFFSET + PROCESSOR_SIZE + |StringSection(strs)|
    requires mark + HEADER_SIZE <= |buf| && buf[TABLE_OFFSET + PROCESSOR_SIZE..mark] == StringSection(strs)
    requires buf[mark..mark + HEADER_SIZE] == EncodeHeader(marker) && mark + HEADER_SIZE <= end
    ensures WalkFrom(buf, end, TABLE_OFFSET) == Trace([Visit(TABLE_OFFSET, p.header)], EndOfTable(mark))
    ensures DecodeRecord(buf, TABLE_OFFSET) == Some(ProcessorRecord(p))
  {
    ProcessorAt(buf, TABLE_OFFSET, p);
    HeaderEncodedAt(buf, mark, marker);
    FixedPartDecodes(buf, TABLE_OFFSET);
    StructureThenMarker(buf, end, TABLE_OFFSET, strs, mark);
  }

  /** A table holding one processor structure, its strings and the end-of-table
      marker, then any trailing bytes inside the table (a real table closes the
      marker with two NUL bytes): the walk goes through the processor at offset 8,
      which decodes field for field as p, and stops at the marker right after the
      strings. */
  lemma ProcessorTable(c: Container, p: ProcessorInformation, strs: seq<seq<u8>>, marker: Header, trailer: seq<u8>)
    requires p.header.kind == Tag(ProcessorInfo) && p.header.length == PROCESSOR_SIZE
    requires WellFormedStrings(strs) && IsEndOfTable(marker)
    requires c.length == PROCESSOR_SIZE + |StringSection(strs)| + HEADER_SIZE + |trailer|
    ensures var buf := EncodeContainer(c) + EncodeProcessor(p) + StringSection(strs) + (EncodeHeader(marker) + trailer);
      WalkTable(buf) == Trace([Visit(TABLE_OFFSET, p.header)],
                              EndOfTable(TABLE_OFFSET + PROCESSOR_SIZE + |StringSection(strs)|)) &&
      DecodeRecord(buf, TABLE_OFFSET) == Some(ProcessorRecord(p))
  {
    var section := StringSection(strs);
    var tail := EncodeHeader(marker) + trailer;
    var buf := EncodeContainer(c) + EncodeProcessor(p) + section + tail;
    TablePieces(buf, EncodeContainer(c), EncodeProcessor(p), section, tail);
    ContainerRoundTrip(c, EncodeProcessor(p) + section + tail);
    var mark := TABLE_OFFSET + PROCESSOR_SIZE + |section|;
    assert buf[mark..mark + HEADER_SIZE] == tail[..HEADER_SIZE];
    ProcessorThenMarker(buf, TableEnd(c), p, strs, marker, mark);
  }
}

=== FILE: walker.dfy ===
/** The walk over the structure table in `main` (src/main.rs:218-275): starting
    right after the container prefix, read the header at the cursor, show the
    structure if its type has a decoder, stop at the end-of-table marker, and
    otherwise move the cursor two bytes past the first pair of NUL bytes at or
    after cursor + length, until it reaches the end of the table.

    The source reads memory without bounds checks; here every read that could
    leave the buffer or the table is an explicit error instead. */
module Walker {
  import opened Bytes
  import opened Structures

  datatype WalkError =
    | TruncatedContainer            // the buffer is shorter than the 8-byte prefix
    | HeaderOutOfBounds(at: nat)    // the header at `at` does not fit before the end
    | FixedPartOutOfBounds(at: nat) // the decoded fixed part runs past the buffer
    | UnterminatedStrings(at: nat)  // no pair of NUL bytes after the structure at `at`

  /** How the walk stopped: at the end-of-table marker at `at`, because the next
      cursor reached the end of the table, or on an error. */
  datatype Status =
    | EndOfTable(at: nat)
    | PastEnd(next: nat)
    | Failed(error: WalkError)

  /** A structure the walk went through: where, and its header. */
  datatype Visit = Visit(at: nat, header: Header)

  datatype Trace = Trace(visits: seq<Visit>, status: Status)

  function Then(v: Visit, t: Trace): Trace {
    Trace([v] + t.visits, t.status)
  }

  // ---------------------------------------------------------------------------
  // The string section (src/main.rs:260-266)

  /** Two NUL bytes start at i, both inside the buffer. */
  predicate DoubleNul(buf: seq<u8>, i: nat) {
    i + 1 < |buf| && buf[i] == 0 && buf[i + 1] == 0
  }

  /** Where the scan from `from` stops: at two NUL bytes, if there are any in the
      buffer at or after `from`. */
  function StringsEnd(buf: seq<u8>, from: nat): (r: Option<nat>)
    ensures r.Some? ==> from <= r.value && DoubleNul(buf, r.value)
    decreases |buf| - from
  {
    if from + 1 >= |buf| then None
    else if buf[from] == 0 && buf[from + 1] == 0 then Some(from)
    else StringsEnd(buf, from + 1)
  }

  /** The scan finds the first pair of NUL bytes at or after `from`, and finds
      nothing exactly when there is no such pair in the buffer. */
  lemma {:induction false} StringsEndFirst(buf: seq<u8>, from: nat)
    ensures var r := StringsEnd(buf, from);
      (r.Some? ==> forall j :: from <= j < r.value ==> !DoubleNul(buf, j)) &&
      (r.None? ==> forall j :: from <= j ==> !DoubleNul(buf, j))
    decreases |buf| - from
  {
    if from + 1 < |buf| && !(buf[from] == 0 && buf[from + 1] == 0) {
      StringsEndFirst(buf, from + 1);
    }
  }

  /** The cursor after the structure at `at`: two past the first pair of NUL bytes
      at or after at + length. */
  function NextCursor(buf: seq<u8>, at: nat): (next: Option<nat>)
    requires at + HEADER_SIZE <= |buf|
    ensures next.Some? ==> next.value >= at + HeaderAt(buf, at).length + 2
  {
    match StringsEnd(buf, at + HeaderAt(buf, at).length)
    case None => None
    case Some(i) => Some(i + 2)
  }

  // ---------------------------------------------------------------------------
  // The walk as a function

  /** The walk from cursor `at` of a table that ends at `end`. */
  function WalkFrom(buf: seq<u8>, end: nat, at: nat): Trace
    requires at <= end
    decreases end - at
  {
    if at + HEADER_SIZE > end || at + HEADER_SIZE > |buf| then Trace([], Failed(HeaderOutOfBounds(at)))
    else if IsEndOfTable(HeaderAt(buf, at)) then Trace([], EndOfTable(at))
    else if !FixedPartFits(buf, at) then Trace([], Failed(FixedPartOutOfBounds(at)))
    else
      var v := Visit(at, HeaderAt(buf, at));
      match NextCursor(buf, at)
      case None => Trace([v], Failed(UnterminatedStrings(at)))
      case Some(next) =>
        if next >= end then Trace([v], PastEnd(next))
        else Then(v, WalkFrom(buf, end, next))
  }

  /** The walk of a whole container: from byte 8 to 8 + the table length. */
  function WalkTable(buf: seq<u8>): Trace {
    match DecodeContainer(buf)
    case None => Trace([], Failed(TruncatedContainer))
    case Some(c) => WalkFrom(buf, TableEnd(c), TABLE_OFFSET)
  }

  /** The prefix of the trace so far, followed by the rest of the walk. */
  function Extend(visits: seq<Visit>, t: Trace): Trace {
    Trace(visits + t.visits, t.status)
  }

  /** The table starts right after the 8-byte prefix and ends 8 + length bytes
      into the buffer, length being the u32 at offset 4. */
  lemma WalkTableStart(buf: seq<u8>)
    requires |buf| >= TABLE_OFFSET
    ensures WalkTable(buf) == WalkFrom(buf, TABLE_OFFSET + ReadU32(buf, 4), TABLE_OFFSET)
  {
    ContainerLength(buf);
  }

  // ---------------------------------------------------------------------------
  // The walk as the source does it

  /** The scan of src/main.rs:260-266: from `from` on, look for two NUL bytes in a
      row; the source reads on until it finds them, the model stops at the end of
      the buffer. */
  method ScanStrings(buf: seq<u8>, from: nat) returns (found: Option<nat>)
    ensures found == StringsEnd(buf, from)
  {
    var i := from;
    while i + 1 < |buf| && (buf[i] != 0 || buf[i + 1] != 0)
      invariant from <= i
      invariant StringsEnd(buf, i) == StringsEnd(buf, from)
      decreases |buf| - i
    {
      i := i + 1;
    }
    if i + 1 >= |buf| {
      return None;
    }
    return Some(i);
  }

  /** Extending a trace so far by the rest of the walk. */
  lemma ExtendStop(visits: seq<Visit>, rest: seq<Visit>, status: Status)
    ensures Extend(visits, Trace(rest, status)) == Trace(visits + rest, status)
  {
  }

  lemma ExtendThen(visits: seq<Visit>, v: Visit, t: Trace)
    ensures Extend(visits, Then(v, t)) == Extend(visits + [v], t)
  {
    assert visits + ([v] + t.visits) == visits + [v] + t.visits;
  }

  lemma NextCursorOf(buf: seq<u8>, at: nat, i: nat)
    requires at + HEADER_SIZE <= |buf| && StringsEnd(buf, at + HeaderAt(buf, at).length) == Some(i)
    ensures NextCursor(buf, at) == Some(i + 2)
  {
  }

  /** The loop of src/main.rs:221-275 from cursor `start` of a table that ends at
      `end`: each structure it goes through, and why it stopped. */
  method WalkStructures(buf: seq<u8>, end: nat, start: nat)
    returns (visits: seq<Visit>, status: Status)
    requires start <= end
    ensures Trace(visits, status) == WalkFrom(buf, end, start)
  {
    ghost var walk := WalkFrom(buf, end, start);
    var at := start;
    visits := [];
    ExtendStop([], walk.visits, walk.status);
    while true
      invariant at <= end
      invariant Extend(visits, WalkFrom(buf, end, at)) == walk
      decreases end - at
    {
      if at + HEADER_SIZE > end || at + HEADER_SIZE > |buf| {
        ExtendStop(visits, [], Failed(HeaderOutOfBounds(at)));
        assert visits + [] == visits;
        return visits, Failed(HeaderOutOfBounds(at));
      }
      var header := HeaderAt(buf, at);
      if IsEndOfTable(header) {
        ExtendStop(visits, [], EndOfTable(at));
        assert visits + [] == visits;
        return visits, EndOfTable(at);
      }
      if !FixedPartFits(buf, at) {
        ExtendStop(visits, [], Failed(FixedPartOutOfBounds(at)));
        assert visits + [] == visits;
        return visits, Failed(FixedPartOutOfBounds(at));
      }
      var v := Visit(at, header);
      var found := ScanStrings(buf, at + header.length);
      if found.None? {
        ExtendStop(visits, [v], Failed(UnterminatedStrings(at)));
        return visits + [v], Failed(UnterminatedStrings(at));
      }
      var next := found.value + 2;
      NextCursorOf(buf, at, found.value);
      if next >= end {
        ExtendStop(visits, [v], PastEnd(next));
        return visits + [v], PastEnd(next);
      }
      ExtendThen(visits, v, WalkFrom(buf, end, next));
      visits := visits + [v];
      at := next;
    }
  }
}
